=== FILE: README.md ===
# GSBMobile visits — a Dafny model

This project models the visit logic of the GSBMobile React Native client, in which
a medical sales representative (*visiteur*) records visits to doctors (*médecins*).
The model covers the following:

- **The service layer.** `formatDateTime` and `formatTimeValue` build the MySQL
  datetime and duration texts. `createVisite` computes the wait and visit
  durations and encodes `rendez_vous` as 0/1. `updateVisite` coerces a boolean
  flag to 0/1. `fetchWithAuth` decides between the token, the request and the
  error. `fetchVisites`, `getVisite`, `createVisite`, `updateVisite`,
  `deleteVisite`, `fetchCabinets` and `fetchMedecins` are built on it. `login`
  calls `fetch` itself, without a token, and has its own fallback message.
- **The visit detail screen.** `loadVisite` reduces an array-or-object response
  to one record and turns the flag into a strict boolean. The model also covers
  what the screen renders after a load, `formatTime`, the duration texts and the
  badge.
- **The visit list screen.** It covers the non-array guard of `loadVisites`,
  `formatTime`, `isRdv`, the badge and the list keys.
- **The visit card.** It covers `formatTime`, the badge and the duration suffix.
- **The add-visit screen.** It covers the `validateTime` pattern,
  `formatTimeForAPI`, `formatTimeForDisplay`, `showTimePickerFor` and the
  single-field update of `handleTimeChange`. It also covers the checks of
  `handleSubmit`, and the label of a time button.

## Files

| file | module | contents |
|---|---|---|
| `wrappers.dfy` | `Wrappers` | `Option` (JavaScript `null`/`undefined`) and `Result` (a returned value or a thrown error) |
| `text.dfy` | `Text` | JavaScript string operations: `substring(0, n)`, `indexOf`, `split`, `String(n)`, `Number` on digit strings, `padStart(2, '0')`, and their round trips |
| `visits.dfy` | `Visits` | the visit record, the `rendez_vous` flag (boolean, number or missing) with its truthiness, the response shapes, and the `HH:MM` extraction shared by the screens |
| `api.dfy` | `Api` | `src/services/api.ts` |
| `visit_detail.dfy` | `VisitDetail` | `src/screens/visits/VisitDetailScreen.tsx` |
| `visit_list.dfy` | `VisitList` | `src/screens/visits/VisitListScreen.tsx` |
| `visit_card.dfy` | `VisitCard` | `src/components/visits/VisitCard.tsx` |
| `add_visit.dfy` | `AddVisit` | `src/screens/visits/AddVisitScreen.tsx` |
| `roundtrips.dfy` | `RoundTrips` | properties that cross files: a time picked on the form is shown back as the same `HH:MM`, and the flag and the durations survive their encoding |
| `scenario.dfy` | `Scenario` | the worked example of a visit from 14:00 to 14:45 |

The network is a parameter, `server: HttpRequest -> HttpResponse<D>`, which stands
for `fetch` followed by `response.json()`. The stored token and the stored user
are also parameters (`Option` values). Each call returns an `Exchange`: the
requests it sent, in order, and the value it returned or the message of the
error it threw.

Behaviour of the code that the model follows:

- **`split(' ')[1]`.** It is the field between the first and the second space,
  not the whole rest of the text. `Visits.ClockText` models it that way.
- **An empty token.** `!token` holds for an empty string as well as for a
  missing one. So an empty token also fails with `Token non trouvé`.
- **`loadVisite` on an error or an empty response.** It sets the error and does
  not call `setVisite`. So the visit shown before is kept in the state.
  `VisitDetail.Render` then shows the error, because the error is checked first.
- **`rendez_vous`.** The list screen tests `typeof rendez_vous === 'boolean'`,
  but `isRdv` is always `Boolean(rendez_vous)`. `VisitList.IsRdvIsTruthiness`
  proves this.
- **`validateTime`.** It is defined but never called. It is modelled as a
  predicate, with its properties proved, and `handleSubmit` does not use it.
- **`formatTimeForDisplay`.** It is defined but never called either: the
  time buttons show the first five characters of the stored time instead.
  It is modelled as a function, with its read-back proved, and no screen
  operation of the model uses it.

## Model

| member | source | states |
|---|---|---|
| Text.Prefix | src/screens/visits/VisitListScreen.tsx:83-85 | `substring(0, n)` keeps the first `n` characters, or the whole text when it is shorter; the result is a prefix of the input |
| Text.IndexOf | src/screens/visits/VisitListScreen.tsx:82 | absent exactly when the character is not in the text; otherwise the position of its first occurrence |
| Text.Split | src/services/api.ts:138-140 | `split` with one separator: at least one field, no field contains the separator, a text without the separator is one field, a text with it gives at least two |
| Text.JoinSplit | src/services/api.ts:138-140 | splitting loses nothing: joining the fields with the separator gives back the text |
| Text.SplitAfterFirst | src/screens/visits/VisitListScreen.tsx:83 | for a separator-free head, the fields of `head + sep + tail` are `head` followed by the fields of `tail` |
| Text.SplitTwo | src/services/api.ts:138 | two separator-free parts joined by the separator split into exactly those two fields |
| Text.SplitFirstTwo | src/services/api.ts:138 | `a:b:rest` splits into at least three fields, the first two being `a` and `b` |
| Text.DigitsHaveNoSeparator | src/services/api.ts:138 | a digit string contains neither a colon nor a space |
| Text.DigitCharRoundTrip | src/services/api.ts:59 | a digit's character reads back as the digit |
| Text.DigitValueRoundTrip | src/services/api.ts:138 | a digit character is the character of its own value |
| Text.Show | src/services/api.ts:59 | `String(n)` is a non-empty digit string; it is one character exactly below 10 and has no leading zero above |
| Text.ParseShow | src/services/api.ts:59 | `Number(String(n)) == n` |
| Text.ParseLeadingZero | src/services/api.ts:59 | a leading zero does not change a digit string's value |
| Text.Pad2 | src/services/api.ts:59 | `padStart(2, '0')` gives at least two characters and keeps a digit string a digit string |
| Text.ParsePad2 | src/services/api.ts:59 | padding does not change the value read back |
| Text.Pad2ShowSmall | src/services/api.ts:59 | below 100, the padded text is the tens digit and then the units digit |
| Text.ParseTwoDigits | src/services/api.ts:138 | a two-digit string is worth ten times its first digit plus its second |
| Text.Pad2ShowParse | src/services/api.ts:138 | every two-digit string is the padded text of its own value |
| Text.ParsePad2Show | src/services/api.ts:59 | the padded text of `n` is a digit string that reads back as `n` |
| Text.ParseDigits | src/services/api.ts:138 | `Number` of a digit string is its decimal value; the empty text reads as 0 |
| Text.TwoDigitsBelowHundred | src/screens/visits/AddVisitScreen.tsx:83-84 | the padded text of `n` has exactly two characters exactly when `n` is below 100 |
| Text.ShowInt | src/screens/visits/VisitListScreen.tsx:154 | `String(i)` starts with a digit exactly when `i` is not negative |
| Text.ShowIntInjective | src/screens/visits/VisitListScreen.tsx:154 | two integers have the same text exactly when they are equal |
| Text.ShowInjective | src/services/api.ts:59 | two natural numbers with the same text are equal |
| Visits.ClockText | src/screens/visits/VisitDetailScreen.tsx:105-108 | at most five characters and no space; a text without a space gives its first five characters |
| Visits.Truthy | src/screens/visits/VisitDetailScreen.tsx:59 | `Boolean(rendez_vous)` is false exactly for `false`, `0` and a missing flag |
| Visits.ClockTextAfterDate | src/screens/visits/VisitDetailScreen.tsx:105-106 | for `date + " " + rest` with a space-free date, the shown time is taken from the first field of `rest`, never from the date |
| Api.FormatDateTime | src/services/api.ts:50-53 | the datetime is as long as the date, one space and the time together |
| Api.SplitDateTime | src/services/api.ts:50-53 | for a space-free date, the first space of the datetime is right after the date, and splitting there gives back the date and then the time |
| Api.FormatTimeValue | src/services/api.ts:55-60 | a duration text has at least eight characters |
| Api.Clamp | src/services/api.ts:142-143 | `Math.max(0, x)` is at least `x`, is `x` or 0, and is never negative |
| Api.FormatTimeValueRoundTrip | src/services/api.ts:55-60 | a duration text read back by `createVisite`'s split gives the hours and the minutes, and so the original number of minutes |
| Api.FormatTimeValueShape | src/services/api.ts:55-60 | below 6000 minutes, a duration text is exactly `DD:DD:00`, and its fields are the padded hours and minutes |
| Api.FormatTimeValueZero | src/services/api.ts:55-60 | zero minutes is `00:00:00` |
| Api.FormatCreate | src/services/api.ts:130-156 | the payload copies the ids and the date, prefixes each time with the date, and holds durations that read back as the clamped differences in minutes; `rendez_vous` is 1 exactly when the flag is true and 0 exactly when it is false |
| Api.WaitWithinVisit | src/services/api.ts:142-143 | the wait is at most the visit exactly when the interview starts no later than the departure, or no later than the arrival |
| Api.SameStartNoWait | src/services/api.ts:142-153 | equal arrival and interview-start times give the wait `00:00:00` |
| Api.EarlyDepartureClamps | src/services/api.ts:143-154 | a departure not after the arrival gives the visit `00:00:00` rather than a negative duration |
| Api.SecondsIgnored | src/services/api.ts:138-140 | `HH:MM` and `HH:MM:anything` are read as the same time |
| Api.ClockFieldsAtFirstColon | src/services/api.ts:138-140 | a well-formed time has a colon; its hour is the digits before the first colon and its minute the first field after it |
| Api.MinutesOf | src/services/api.ts:142-143 | `h * 60 + m` is at least sixty times the hour and at least the minute, and below the next hour when the minute is below 60 |
| Api.WaitMinutes | src/services/api.ts:142 | the wait is 0 exactly when the interview starts no later than the arrival; otherwise the arrival plus the wait is the start |
| Api.VisitMinutes | src/services/api.ts:143 | the visit is 0 exactly when the departure is no later than the arrival; otherwise the arrival plus the visit is the departure |
| Api.UpdateFlag | src/services/api.ts:189-191 | a boolean becomes the number 1 or 0; any other value is sent unchanged; the truth value is kept |
| Api.FormatUpdate | src/services/api.ts:185-192 | only `rendez_vous` changes; the flag sent is never a boolean and has the same truth value; true/false become 1/0 |
| Api.FormatUpdateIdempotent | src/services/api.ts:187-192 | coercing an already coerced record changes nothing |
| Api.MessageOr | src/services/api.ts:113-115 | the server's message whenever it is present and non-empty, otherwise the fallback; never empty when the fallback is not |
| Api.FetchWithAuth | src/services/api.ts:90-122 | no request at all exactly when the token is missing or empty, which fails with `Token non trouvé`; otherwise one request to the endpoint with the bearer token; success exactly when the response is ok, with its data; otherwise the server's message or `Erreur API` |
| Api.HasToken | src/services/api.ts:95 | `!token` holds exactly for a missing token and for the empty text |
| Api.Login | src/services/api.ts:63-87 | one untokened POST of the credentials to `/ApiAuth.php`; success exactly when the response is ok; otherwise the server's message or `Erreur de connexion` |
| Api.FetchVisites | src/services/api.ts:125-127 | with a token, one GET of `/ApiVisite.php`; without one, no request and `Token non trouvé` |
| Api.GetVisite | src/services/api.ts:180-182 | with a token, one GET of `/ApiVisite.php?id=` and the id; without one, no request |
| Api.GetVisiteUrlsDistinct | src/services/api.ts:180-182 | two ids are fetched from the same address exactly when they are equal |
| Api.CreateVisite | src/services/api.ts:130-166 | with a token, one POST to `/ApiVisite.php` carrying the formatted payload; without one, no request; success exactly when there is a token and the response is ok |
| Api.UpdateVisite | src/services/api.ts:185-198 | with a token, one PUT to `/ApiVisite.php` carrying the coerced record; without one, no request |
| Api.DeleteVisite | src/services/api.ts:201-206 | with a token, one DELETE to `/ApiVisite.php` with the id in the body and not in the address; without one, no request |
| Api.CabinetQuery | src/services/api.ts:170 | the query string is non-empty exactly when both coordinates are present and non-zero, and then holds both |
| Api.DeleteTargetsFetchedVisite | src/services/api.ts:180-206 | the address `getVisite` fetches for an id is the address `deleteVisite` sends to followed by `?id=` and the id in its body; different ids give different delete requests |
| Api.FetchCabinets | src/services/api.ts:169-172 | with a token, one GET of `/ApiCabinet.php` followed by the query string; without one, no request |
| Api.CabinetQueryReadBack | src/services/api.ts:170 | for coordinate texts without `&`, the query is `?` and then two fields split at `&`: `latitude=` with the latitude's text, then `longitude=` with the longitude's |
| Api.QueryFields | src/services/api.ts:170 | `?a&b` with `&`-free `a` and `b` splits after the `?` into exactly `a` and `b` |
| Api.FetchMedecins | src/services/api.ts:175-177 | with a token, one GET of `/ApiMedecin.php`; without one, no request |
| VisitDetail.PickRecord | src/screens/visits/VisitDetailScreen.tsx:53-55 | an object gives itself; an array gives its first element, and gives nothing exactly when it is empty; `null` gives nothing |
| VisitDetail.Normalize | src/screens/visits/VisitDetailScreen.tsx:57-60 | the flag becomes a strict boolean with the same truth value, and no other field changes |
| VisitDetail.NormalizeFlagTable | src/screens/visits/VisitDetailScreen.tsx:59 | 1, 0, true, false and a missing flag become true, false, true, false, false; any number becomes true exactly when it is non-zero |
| VisitDetail.NormalizeIdempotent | src/screens/visits/VisitDetailScreen.tsx:57-60 | normalizing twice is normalizing once |
| VisitDetail.LoadVisite | src/screens/visits/VisitDetailScreen.tsx:44-70 | loading ends; a thrown error sets `Impossible de charger la visite: ` and the message; a record clears the error and becomes the normalized visit; no record sets `Aucune donnée reçue`; both failures keep the previous visit |
| VisitDetail.Render | src/screens/visits/VisitDetailScreen.tsx:130-149 | a spinner exactly while loading; after loading, a non-empty error is shown first; with no error, the visit in the state, or the generic error when there is none; an error view never has an empty message |
| VisitDetail.LoadThenRender | src/screens/visits/VisitDetailScreen.tsx:44-149 | after a load the screen shows the normalized record when the response held one, and otherwise the matching error, whatever it showed before |
| VisitDetail.ArrayOrObjectAgree | src/screens/visits/VisitDetailScreen.tsx:53 | a response `[v, ...]` and a response `v` lead to the same state |
| VisitDetail.FormatTime | src/screens/visits/VisitDetailScreen.tsx:101-112 | `-` for a missing or empty value; otherwise the shared `HH:MM` extraction; at most five characters |
| VisitDetail.DurationText | src/screens/visits/VisitDetailScreen.tsx:202-206 | `-` for a missing or empty duration; otherwise its first five characters, a prefix of it |
| VisitDetail.BadgeLabel | src/screens/visits/VisitDetailScreen.tsx:176 | `Sur rendez-vous` exactly when the flag is truthy, and `Sans rendez-vous` exactly when it is not |
| VisitList.LoadVisites | src/screens/visits/VisitListScreen.tsx:40-52 | loading and refreshing end; the error is cleared exactly on success; an array becomes the list and anything else the empty list; a failure sets the error and keeps the list |
| VisitList.FormatTime | src/screens/visits/VisitListScreen.tsx:78-86 | `''` for an empty value; otherwise the shared `HH:MM` extraction; at most five characters |
| VisitList.IsRdv | src/screens/visits/VisitListScreen.tsx:91-93 | a boolean is kept; a number is true exactly when non-zero; a missing flag is false |
| VisitList.IsRdvIsTruthiness | src/screens/visits/VisitListScreen.tsx:91-93 | `isRdv` always equals `Boolean(rendez_vous)`, the flag the detail screen normalizes to |
| VisitList.BadgeLabel | src/screens/visits/VisitListScreen.tsx:110 | `RDV` exactly when `isRdv`, and `Sans RDV` exactly when not |
| VisitList.KeyOf | src/screens/visits/VisitListScreen.tsx:154 | a key starts with `visit-` and goes on after it |
| VisitList.KeysDistinct | src/screens/visits/VisitListScreen.tsx:154 | two visits have the same key exactly when they have the same id |
| VisitList.ListKeysDistinct | src/screens/visits/VisitListScreen.tsx:151-154 | a list with pairwise distinct ids has pairwise distinct keys |
| VisitCard.FormatTime | src/components/visits/VisitCard.tsx:29-35 | `''` for an empty value; otherwise the same `HH:MM` as the other screens, although its branches are written differently |
| VisitCard.BadgeLabel | src/components/visits/VisitCard.tsx:53 | `RDV` exactly when the flag is truthy, and `Sans RDV` exactly when not |
| VisitCard.DurationSuffix | src/components/visits/VisitCard.tsx:64 | nothing when the duration is missing or empty; otherwise its `HH:MM` in parentheses after a space |
| VisitCard.DurationSuffixExample | src/components/visits/VisitCard.tsx:64 | a duration `00:45:00` is shown as ` (00:45)` |
| AddVisit.ValidateTimeIsPattern | src/screens/visits/AddVisitScreen.tsx:77-80 | checking the colon third from the end accepts exactly the texts that the regular expression matches at some colon |
| AddVisit.ValidateTime | src/screens/visits/AddVisitScreen.tsx:77-80 | an accepted text has four or five characters and contains a colon |
| AddVisit.ShowParseOneDigit | src/screens/visits/AddVisitScreen.tsx:78 | a one-digit hour is the text of its own value |
| AddVisit.ValidateTimeSound | src/screens/visits/AddVisitScreen.tsx:77-80 | an accepted text has two colon fields, an hour below 24 and a minute below 60, and is `HH:MM` or `H:MM` of them |
| AddVisit.ValidateTimeComplete | src/screens/visits/AddVisitScreen.tsx:77-80 | every hour below 24 and minute below 60 is accepted, with or without a leading zero on the hour |
| AddVisit.HourTexts | src/screens/visits/AddVisitScreen.tsx:78 | an hour below 24, padded or not, matches the hour part of the pattern |
| AddVisit.MinuteTexts | src/screens/visits/AddVisitScreen.tsx:78 | a padded minute below 60 matches the minute part of the pattern |
| AddVisit.ValidateJoined | src/screens/visits/AddVisitScreen.tsx:78 | an hour part, a colon and a minute part make an accepted text |
| AddVisit.ValidateTimeExamples | src/screens/visits/AddVisitScreen.tsx:77-80 | `7:05` is accepted; `24:00`, `12:60` and `14:30:00` are rejected |
| AddVisit.FormatTimeForAPIRoundTrip | src/screens/visits/AddVisitScreen.tsx:82-86 | a picked time is the MySQL time `HH:MM:00` of the same minutes; `createVisite`'s split reads back the picked hour and minute; its first five characters pass `validateTime` |
| AddVisit.FormatTimeForDisplay | src/screens/visits/AddVisitScreen.tsx:88-97 | typed text is returned unchanged; a picked time gives its padded hours, minutes and seconds separated by colons |
| AddVisit.FormatTimeForAPI | src/screens/visits/AddVisitScreen.tsx:82-86 | a picked clock gives a time `createVisite` reads as a time, of at least eight characters ending in `:00` |
| AddVisit.DisplayedPickReadBack | src/screens/visits/AddVisitScreen.tsx:88-97 | a picked time is displayed as eight characters `HH:MM:SS` whose three fields read back as the hours, minutes and seconds, and whose `HH:MM` is that of the text sent |
| AddVisit.ShowTimePickerFor | src/screens/visits/AddVisitScreen.tsx:157-160 | the form is unchanged, the field is remembered and the picker opens |
| AddVisit.HandleTimeChange | src/screens/visits/AddVisitScreen.tsx:99-118 | the picker closes; with a picked time and a current field, that field takes the picker's text; every other field, the date and the flag are unchanged; with no time or no field the form is unchanged |
| AddVisit.PickedIsPickerTime | src/screens/visits/AddVisitScreen.tsx:82-86 | the picker's text of a valid clock is a time the form can hold |
| AddVisit.HandleTimeChangeKeepsInvariant | src/screens/visits/AddVisitScreen.tsx:99-118 | picking a time keeps every time of the form empty or a picker text |
| AddVisit.PickerTimeWellFormed | src/screens/visits/AddVisitScreen.tsx:140-142 | a non-empty time of the form can be read by `createVisite`, as an hour below 24 and a minute below 60 |
| AddVisit.HandleSubmit | src/screens/visits/AddVisitScreen.tsx:120-155 | without a doctor, `Veuillez sélectionner un médecin` and no request; with an empty time, `Veuillez remplir toutes les heures` and no request; with a doctor, all times, a user and a token exactly one request: `createVisite`'s POST to `/ApiVisite.php` with the bearer token and the JSON content type, carrying the payload of the form; without a user, the failure alert and no request; past the checks the alert is the success or the failure; success exactly when the request was answered ok |
| AddVisit.TimesFilled | src/screens/visits/AddVisitScreen.tsx:128 | the three times are filled exactly when none of them is empty |
| AddVisit.TimeButtonLabel | src/screens/visits/AddVisitScreen.tsx:185 | the prompt for an empty value; otherwise its first five characters, a prefix of it |
| AddVisit.PickedLabelIsValid | src/screens/visits/AddVisitScreen.tsx:185 | a picked time's button shows `HH:MM`, which `validateTime` accepts |
| RoundTrips.FormatTimesAgree | src/components/visits/VisitCard.tsx:29-35 | the card's, the list's and the detail screen's `formatTime` agree on every non-empty text; for an empty one the first two show `''` and the detail screen `-` |
| RoundTrips.DateTimeShownAsTime | src/screens/visits/VisitListScreen.tsx:82-85 | a datetime built by `formatDateTime` from a space-free date and time is shown, on every screen, as the first five characters of the time |
| RoundTrips.DateTimeExample | src/screens/visits/VisitListScreen.tsx:83 | `2025-03-06 14:57:25` is shown as `14:57` |
| RoundTrips.PickedTimeListedBack | src/services/api.ts:133-135 | a picked time, stored by `createVisite` as a datetime, is listed back as exactly the picked `HH:MM` |
| RoundTrips.RendezVousRoundTrip | src/services/api.ts:155 | the 0/1 sent by `createVisite` is read back by the detail and list screens as the boolean the form held |
| RoundTrips.UpdateThenNormalize | src/services/api.ts:187-192 | the record `updateVisite` sends, normalized by the detail screen, is the record the screen had, normalized |
| RoundTrips.PickedDurations | src/services/api.ts:138-143 | for times entered with the picker, the durations are the clamped differences of the picked clock times in minutes |
| RoundTrips.PickedMinutes | src/services/api.ts:138 | a picked time reads back as its minutes since midnight |
| RoundTrips.DurationsShownBack | src/screens/visits/VisitDetailScreen.tsx:206 | the duration the payload carries is shown by the detail screen as the hours and minutes of the clamped difference |
| RoundTrips.FormatTimeValueUnderAnHour | src/services/api.ts:55-60 | under an hour, a duration is `00:`, its two minute digits and `:00` |
| RoundTrips.DetailAfterGetVisite | src/screens/visits/VisitDetailScreen.tsx:44-70 | after `getVisite`: without a token no request and `Impossible de charger la visite: Token non trouvé`; an ok response with a record shows it normalized; a failed one shows the server's message or `Erreur API` after the prefix |
| RoundTrips.ListAfterFetchVisites | src/screens/visits/VisitListScreen.tsx:40-52 | after `fetchVisites`: an ok array becomes the list and any other ok value the empty list; no token, which sends nothing, or a failed response sets the error and keeps the list |
| RoundTrips.BadgesAgree | src/components/visits/VisitCard.tsx:53 | the card, the list and the detail screen show the appointment badge for the same visits, before and after normalization |
| RoundTrips.DurationSuffixShowsDuration | src/components/visits/VisitCard.tsx:64 | a duration sent by `createVisite` is shown on the card as ` (HH:MM)` of its hours and minutes |
| Scenario.CreateScenario | src/services/api.ts:130-156 | 14:00, 14:15 and 14:45 on 2025-03-06 by appointment give `2025-03-06 14:00`, a wait of `00:15:00`, a visit of `00:45:00` and the flag 1 |
| Scenario.ScenarioDurations | src/services/api.ts:138-143 | those three times give a 15-minute wait and a 45-minute visit |
| Scenario.At1400 | src/services/api.ts:138 | `14:00` reads as 840 minutes |
| Scenario.At1415 | src/services/api.ts:138 | `14:15` reads as 855 minutes |
| Scenario.At1445 | src/services/api.ts:138 | `14:45` reads as 885 minutes |
| Scenario.ArrivalText | src/services/api.ts:50-53 | the arrival datetime of the example is `2025-03-06 14:00` |
| Scenario.FifteenMinutes | src/services/api.ts:55-60 | 15 minutes is `00:15:00` |
| Scenario.FortyFiveMinutes | src/services/api.ts:55-60 | 45 minutes is `00:45:00` |
| Scenario.TimeOfTwoFields | src/services/api.ts:138-142 | `HH:MM` with two-digit fields reads as sixty times the hours plus the minutes |

## Left out

- **Network and storage.** `fetch`, `response.json()` and `AsyncStorage` are
  input/output. The response is a parameter and the token and the user are
  `Option` values. A body that does not parse as JSON is not modelled.
- **`console.log` and `console.error` calls.** They are diagnostics with no effect on the result.
- Api.CreateVisite: requires each time to be well formed. That means at least
  two colon-separated fields, both digit strings. The code has no such check:
  it computes `NaN` durations from a malformed time and sends `NaN:NaN:00`.
  JavaScript's `NaN` and `Number` coercion of arbitrary text are not modelled.
  On the add-visit screen every time comes from the picker, and
  `AddVisit.PickerTimeWellFormed` proves those times are well formed.
- Api.CreateVisite: JavaScript numbers are 64-bit floating point, and the model
  reads hours and minutes as unbounded natural numbers. `Number` loses
  precision above 2^53, and `String` switches to exponent notation from 10^21,
  so a typed time with a field that large would be read differently, and
  `Api.FormatTimeValueRoundTrip` and the read-back in `Api.FormatCreate` hold
  in the code only below those bounds. Times on
  the add-visit screen come from the picker, with an hour below 24 and a minute
  below 60, so that range is never reached there.
- Text.Prefix: strings are modelled as sequences of Unicode characters, while
  JavaScript's `substring`, `padStart` and `length` count UTF-16 code units.
  The two agree on the ASCII date, time and duration texts the client builds
  and reads; a text holding a character outside the Basic Multilingual Plane
  would be cut at a different place. The same holds for `Text.Pad2` and
  `Visits.ClockText`.
- Text.Show: `String(n)` is modelled as plain decimal digits for every natural
  number; the exponent notation JavaScript uses from 10^21 is not modelled.
- **A transport failure.** `server` is a total function that always returns a
  response. A `fetch` that rejects, for example when the network is down, is
  caught and rethrown by `fetchWithAuth` (`src/services/api.ts:118-120`) and by
  `login`. Neither case is modelled, so every modelled exchange ends with a
  response.
- AddVisit.HandleSubmit: requires every time of the form to be empty or a picker
  text, which `AddVisit.HandleTimeChangeKeepsInvariant` shows the screen
  maintains.
- Api.FormatTimeValue: `Math.floor(minutes / 60)` and `minutes % 60` are taken
  on natural numbers only. The minutes passed are always clamped at 0, so
  negative and fractional minutes never reach it.
- Api.Coordinate: a coordinate is its numeric value, which decides
  truthiness, and its text `String(value)`. JavaScript's rendering of
  floating-point numbers and `NaN` are not modelled.
- **The `try`/`catch` wrapper of `createVisite`.** It rethrows what it
  catches, so the outcome is that of `fetchWithAuth`.
- **`formatDate` in the screens and the default `date_visite`.** They use
  `Date` and `toLocaleDateString`, which depend on the locale and the clock.
- **Loading cabinets and doctors on the add-visit screen.** This is the
  geolocation permission, the position and the selection of the first cabinet.
  It is device input/output, and the distances are floating point.
- `handleDelete` on the detail screen: a confirmation dialog around `deleteVisite` and navigation. Only `Api.DeleteVisite` is modelled.
- **Navigation, the retry and refresh buttons, styles and React rendering.**
  `VisitDetail.Render` models only which of the three views is shown.
- `src/services/auth.ts`, the login, home and register screens, `App.tsx`,
  the navigation, `src/types`, `src/utils` and `webpack.config.js` are not
  part of this model. They are storage wrappers, UI, type declarations and
  build configuration.

=== FILE: add_visit.dfy ===
/** The add-visit screen (`src/screens/visits/AddVisitScreen.tsx`): the time
    pattern of `validateTime`, the picker's `HH:MM:00` text, the single-field
    update of `handleTimeChange`, the checks of `handleSubmit` and the label of
    a time button. */
module AddVisit {
  import opened Wrappers
  import opened Text
  import opened Visits
  import Api

  /*** validateTime ***/

  /** `([0-1]?[0-9]|2[0-3])`: one digit, or two digits from 00 to 23. */
  predicate HourText(h: string) {
    || (|h| == 1 && IsDigit(h[0]))
    || (|h| == 2 && '0' <= h[0] <= '1' && IsDigit(h[1]))
    || (|h| == 2 && h[0] == '2' && '0' <= h[1] <= '3')
  }

  /** `[0-5][0-9]`: two digits from 00 to 59. */
  predicate MinuteText(m: string) {
    |m| == 2 && '0' <= m[0] <= '5' && IsDigit(m[1])
  }

  /** The regular expression `^([0-1]?[0-9]|2[0-3]):[0-5][0-9]$` read
      literally: at some colon the text divides into an hour and a minute part. */
  ghost predicate MatchesTimePattern(s: string) {
    exists k :: 0 <= k < |s| && s[k] == ':' && HourText(s[..k]) && MinuteText(s[k + 1..])
  }

  /** `validateTime`: the minute part is always the last two characters, so
      the colon can only be the third character from the end. */
  predicate ValidateTime(s: string)
    ensures ValidateTime(s) ==> 4 <= |s| <= 5 && ':' in s
  {
    |s| >= 3 && s[|s| - 3] == ':' && HourText(s[..|s| - 3]) && MinuteText(s[|s| - 2..])
  }

  /** Looking only at the third character from the end decides the pattern exactly. */
  lemma ValidateTimeIsPattern(s: string)
    ensures ValidateTime(s) <==> MatchesTimePattern(s)
  {
    if ValidateTime(s) {
      assert s[|s| - 3 + 1..] == s[|s| - 2..];
      assert 0 <= |s| - 3 < |s| && s[|s| - 3] == ':' && HourText(s[..|s| - 3]) && MinuteText(s[|s| - 3 + 1..]);
    }
    if MatchesTimePattern(s) {
      var k :| 0 <= k < |s| && s[k] == ':' && HourText(s[..k]) && MinuteText(s[k + 1..]);
      assert k == |s| - 3;
    }
  }

  /** A one-digit number is its own digit. */
  lemma ShowParseOneDigit(d: string)
    requires |d| == 1 && IsDigits(d)
    ensures ParseDigits(d) < 10 && Show(ParseDigits(d)) == d
  {
    assert d[..0] == [];
    DigitValueRoundTrip(d[0]);
  }

  /** Every accepted text is an hour below 24 and a minute below 60, written
      as `H:MM` or `HH:MM`, and reads back through `createVisite`'s split. */
  lemma ValidateTimeSound(s: string)
    requires ValidateTime(s)
    ensures Api.WellFormedTime(s) && |Split(s, ':')| == 2
    ensures var (h, m) := Api.ClockFields(s);
      && h < 24 && m < 60
      && (s == Pad2(Show(h)) + ":" + Pad2(Show(m)) || s == Show(h) + ":" + Pad2(Show(m)))
  {
    var hp := s[..|s| - 3];
    var mp := s[|s| - 2..];
    assert IsDigits(hp) && IsDigits(mp);
    DigitsHaveNoSeparator(hp);
    DigitsHaveNoSeparator(mp);
    assert s == hp + [':'] + mp;
    SplitTwo(hp, ':', mp);
    var h := ParseDigits(hp);
    var m := ParseDigits(mp);
    Pad2ShowParse(mp);
    ParseTwoDigits(mp);
    if |hp| == 1 {
      ShowParseOneDigit(hp);
    } else {
      Pad2ShowParse(hp);
      ParseTwoDigits(hp);
    }
  }

  /** Every hour below 24 and minute below 60 is accepted, with or without a
      leading zero on the hour. */
  lemma ValidateTimeComplete(h: nat, m: nat)
    requires h < 24 && m < 60
    ensures ValidateTime(Pad2(Show(h)) + ":" + Pad2(Show(m)))
    ensures ValidateTime(Show(h) + ":" + Pad2(Show(m)))
  {
    HourTexts(h);
    MinuteTexts(m);
    ValidateJoined(Pad2(Show(h)), Pad2(Show(m)));
    ValidateJoined(Show(h), Pad2(Show(m)));
  }

  /** An hour below 24 is an hour part, padded or not. */
  lemma HourTexts(h: nat)
    requires h < 24
    ensures HourText(Pad2(Show(h))) && HourText(Show(h))
  {
    Pad2ShowSmall(h);
    var t := h / 10;
    assert t <= 2 && (t == 2 ==> h % 10 <= 3);
    assert HourText([DigitChar(t), DigitChar(h % 10)]);
    if h >= 10 {
      assert Show(h) == Pad2(Show(h));
    }
  }

  /** A minute below 60 is a minute part once padded. */
  lemma MinuteTexts(m: nat)
    requires m < 60
    ensures MinuteText(Pad2(Show(m)))
  {
    Pad2ShowSmall(m);
    assert m / 10 <= 5;
  }

  /** An hour part, a colon and a minute part make an accepted text. */
  lemma ValidateJoined(hh: string, mm: string)
    requires HourText(hh) && MinuteText(mm)
    ensures ValidateTime(hh + ":" + mm)
  {
    var s := hh + ":" + mm;
    assert s[..|s| - 3] == hh;
    assert s[|s| - 2..] == mm;
  }

  /** `7:05` is accepted; `24:00`, `12:60` and `14:30:00` are rejected. */
  lemma ValidateTimeExamples()
    ensures ValidateTime("7:05")
    ensures !ValidateTime("24:00") && !ValidateTime("12:60") && !ValidateTime("14:30:00")
  {
    assert "7:05"[..1] == "7";
    assert "24:00"[..2] == "24";
    assert "12:60"[3..] == "60";
    assert "14:30:00"[..5] == "14:30";
    assert !HourText("14:30");
  }

  /*** The time picker ***/

  /** What the picker's `Date` gives: `getHours()`, `getMinutes()`, `getSeconds()`. */
  datatype Clock = Clock(hours: nat, minutes: nat, seconds: nat)

  predicate ValidClock(c: Clock) {
    c.hours < 24 && c.minutes < 60 && c.seconds < 60
  }

  /** `formatTimeForAPI`: `HH:MM:00`, the seconds dropped. */
  function FormatTimeForAPI(c: Clock): (r: string)
    ensures ValidClock(c) ==> Api.IsTimeText(r)
    ensures |r| >= 8 && r[|r| - 3..] == ":00"
  {
    var hh := Pad2(Show(c.hours));
    var mm := Pad2(Show(c.minutes));
    TwoDigitsBelowHundred(c.hours);
    TwoDigitsBelowHundred(c.minutes);
    hh + ":" + mm + ":00"
  }

  /** The picker's text is a MySQL time, is the formatted duration of the same
      number of minutes, reads back through `createVisite`'s split as the
      picked hour and minute, and its first five characters pass `validateTime`. */
  lemma FormatTimeForAPIRoundTrip(c: Clock)
    requires ValidClock(c)
    ensures FormatTimeForAPI(c) == Api.FormatTimeValue(c.hours * 60 + c.minutes)
    ensures Api.WellFormedTime(FormatTimeForAPI(c))
    ensures Api.ClockFields(FormatTimeForAPI(c)) == (c.hours, c.minutes)
    ensures Prefix(FormatTimeForAPI(c), 5) == Pad2(Show(c.hours)) + ":" + Pad2(Show(c.minutes))
    ensures ValidateTime(Prefix(FormatTimeForAPI(c), 5))
  {
    var total := c.hours * 60 + c.minutes;
    assert total / 60 == c.hours && total % 60 == c.minutes;
    Api.FormatTimeValueRoundTrip(total);
    Api.FormatTimeValueShape(total);
    ValidateTimeComplete(c.hours, c.minutes);
    Pad2ShowSmall(c.hours);
    Pad2ShowSmall(c.minutes);
  }

  /** A value handed to `formatTimeForDisplay`: text already formatted, or a `Date`. */
  datatype TimeInput = Typed(text: string) | Picked(clock: Clock)

  /** `formatTimeForDisplay`: text is returned unchanged, a `Date` becomes `HH:MM:SS`. */
  function FormatTimeForDisplay(t: TimeInput): (r: string)
    ensures t.Typed? ==> r == t.text
    ensures t.Picked? ==>
      r == Pad2(Show(t.clock.hours)) + ":" + Pad2(Show(t.clock.minutes)) + ":" + Pad2(Show(t.clock.seconds))
  {
    match t
    case Typed(s) => s
    case Picked(c) => Pad2(Show(c.hours)) + ":" + Pad2(Show(c.minutes)) + ":" + Pad2(Show(c.seconds))
  }

  /** A picked time is shown as eight characters: the `HH:MM` the picker stores,
      then a colon and the seconds, and each field reads back as its number. */
  lemma DisplayedPickReadBack(c: Clock)
    requires ValidClock(c)
    ensures var r := FormatTimeForDisplay(Picked(c));
      && |r| == 8 && r[2] == ':' && r[5] == ':'
      && Prefix(r, 5) == Prefix(FormatTimeForAPI(c), 5)
      && IsDigits(r[..2]) && ParseDigits(r[..2]) == c.hours
      && IsDigits(r[3..5]) && ParseDigits(r[3..5]) == c.minutes
      && IsDigits(r[6..]) && ParseDigits(r[6..]) == c.seconds
  {
    Pad2ShowSmall(c.hours);
    Pad2ShowSmall(c.minutes);
    Pad2ShowSmall(c.seconds);
    var r := FormatTimeForDisplay(Picked(c));
    assert r[..2] == Pad2(Show(c.hours));
    assert r[3..5] == Pad2(Show(c.minutes));
    assert r[6..] == Pad2(Show(c.seconds));
    ParsePad2Show(c.hours);
    ParsePad2Show(c.minutes);
    ParsePad2Show(c.seconds);
  }

  /*** The form ***/

  datatype TimeField = Arrivee | Debut | Depart

  /** `formData`. */
  datatype VisitForm = VisitForm(
    dateVisite: string,
    heureArrivee: string,
    heureDebutEntretien: string,
    heureDepart: string,
    rendezVous: bool)

  /** The screen state the picker touches: the form, `currentTimeField`, `showTimePicker`. */
  datatype PickerState = PickerState(form: VisitForm, currentField: Option<TimeField>, showPicker: bool)

  function FieldValue(f: VisitForm, field: TimeField): string {
    match field
    case Arrivee => f.heureArrivee
    case Debut => f.heureDebutEntretien
    case Depart => f.heureDepart
  }

  /** `showTimePickerFor`: remember the field and open the picker. */
  function ShowTimePickerFor(s: PickerState, field: TimeField): (r: PickerState)
    ensures r.form == s.form && r.currentField == Some(field) && r.showPicker
  {
    PickerState(s.form, Some(field), true)
  }

  /** `handleTimeChange`: the picker closes; when a time was picked for a
      field, that field alone takes the picker's text. */
  function HandleTimeChange(s: PickerState, selected: Option<Clock>): (r: PickerState)
    ensures !r.showPicker && r.currentField == s.currentField
    ensures selected.None? || s.currentField.None? ==> r.form == s.form
    ensures selected.Some? && s.currentField.Some? ==>
      FieldValue(r.form, s.currentField.value) == FormatTimeForAPI(selected.value)
    ensures forall g: TimeField :: !(selected.Some? && s.currentField == Some(g)) ==> FieldValue(r.form, g) == FieldValue(s.form, g)
    ensures r.form.dateVisite == s.form.dateVisite && r.form.rendezVous == s.form.rendezVous
  {
    var form :=
      if selected.Some? && s.currentField.Some? then
        var t := FormatTimeForAPI(selected.value);
        match s.currentField.value
        case Arrivee => s.form.(heureArrivee := t)
        case Debut => s.form.(heureDebutEntretien := t)
        case Depart => s.form.(heureDepart := t)
      else s.form;
    PickerState(form, s.currentField, false)
  }

  /** A time the form can hold: empty, or a picker text of a valid clock. */
  predicate PickerTime(t: string) {
    t == "" || (Api.IsTimeText(t) && 10 * DigitValue(t[0]) + DigitValue(t[1]) < 24 && DigitValue(t[3]) < 6)
  }

  /** Only the picker writes times, so every time of the form is a `PickerTime`. */
  predicate FormInvariant(f: VisitForm) {
    PickerTime(f.heureArrivee) && PickerTime(f.heureDebutEntretien) && PickerTime(f.heureDepart)
  }

  lemma PickedIsPickerTime(c: Clock)
    requires ValidClock(c)
    ensures PickerTime(FormatTimeForAPI(c))
  {
    Pad2ShowSmall(c.hours);
    Pad2ShowSmall(c.minutes);
    DigitCharRoundTrip(c.hours / 10);
    DigitCharRoundTrip(c.hours % 10);
    DigitCharRoundTrip(c.minutes / 10);
  }

  /** Picking a time keeps every time of the form a picker time. */
  lemma HandleTimeChangeKeepsInvariant(s: PickerState, selected: Option<Clock>)
    requires FormInvariant(s.form)
    requires selected.Some? ==> ValidClock(selected.value)
    ensures FormInvariant(HandleTimeChange(s, selected).form)
  {
    if selected.Some? {
      PickedIsPickerTime(selected.value);
    }
  }

  /** A non-empty picker time is well formed for `createVisite`. */
  lemma PickerTimeWellFormed(t: string)
    requires PickerTime(t) && t != ""
    ensures Api.WellFormedTime(t)
    ensures Api.ClockFields(t).0 < 24 && Api.ClockFields(t).1 < 60
  {
    var hh := t[..2];
    var mm := t[3..5];
    assert IsDigits(hh) && IsDigits(mm);
    DigitsHaveNoSeparator(hh);
    DigitsHaveNoSeparator(mm);
    assert t == hh + [':'] + mm + [':'] + t[6..];
    SplitFirstTwo(hh, ':', mm, t[6..]);
    ParseTwoDigits(hh);
    ParseTwoDigits(mm);
  }

  /*** handleSubmit ***/

  datatype Medecin = Medecin(idMedecin: int, nom: string, prenom: string)

  /** The stored `userData`. */
  datatype User = User(id: int, nom: string, prenom: string, email: string)

  const ChooseDoctor: string := "Veuillez sélectionner un médecin"
  const FillTimes: string := "Veuillez remplir toutes les heures"
  const Saved: string := "Visite enregistrée avec succès"
  const CreateFailed: string := "Impossible de créer la visite"

  predicate TimesFilled(f: VisitForm)
    ensures TimesFilled(f) <==> forall g: TimeField :: FieldValue(f, g) != ""
  {
    FieldValue(f, Arrivee) != "" && FieldValue(f, Debut) != "" && FieldValue(f, Depart) != ""
  }

  /** What `handleSubmit` did: the alert it showed and the requests it sent. */
  datatype SubmitResult = SubmitResult(alert: string, sent: seq<Api.HttpRequest>)

  /** The data `handleSubmit` passes to `createVisite`. */
  function VisiteData(m: Medecin, f: VisitForm, u: User): Api.CreateVisiteData {
    Api.CreateVisiteData(u.id, m.idMedecin, f.dateVisite, f.heureArrivee, f.heureDebutEntretien, f.heureDepart, f.rendezVous)
  }

  /** `handleSubmit`: without a doctor or with an empty time it alerts and sends
      nothing; a missing stored user makes it fail before any request;
      otherwise it sends one `createVisite` and reports its outcome. */
  function HandleSubmit<D>(token: Option<string>, medecin: Option<Medecin>, form: VisitForm, user: Option<User>,
                           server: Api.HttpRequest -> Api.HttpResponse<D>): (r: SubmitResult)
    requires FormInvariant(form)
    ensures medecin.None? ==> r == SubmitResult(ChooseDoctor, [])
    ensures medecin.Some? && !TimesFilled(form) ==> r == SubmitResult(FillTimes, [])
    ensures r.sent != [] ==> medecin.Some? && TimesFilled(form) && user.Some? && Api.HasToken(token)
    ensures medecin.Some? && TimesFilled(form) && user.Some? && Api.HasToken(token) ==> |r.sent| == 1
    ensures medecin.Some? && TimesFilled(form) && user.None? ==> r == SubmitResult(CreateFailed, [])
    ensures medecin.Some? && TimesFilled(form) && r.alert != Saved ==> r.alert == CreateFailed
    ensures r.alert == Saved <==>
      medecin.Some? && TimesFilled(form) && user.Some? && Api.HasToken(token) && r.sent != [] && server(r.sent[0]).ok
    ensures r.sent != [] ==>
      r.sent[0] == Api.HttpRequest(Api.Post, Api.BaseUrl + "/ApiVisite.php", Some("Bearer " + token.value), "application/json", r.sent[0].body)
    ensures r.sent != [] ==>
      && Api.TimesWellFormed(VisiteData(medecin.value, form, user.value))
      && r.sent[0].body == Api.NewVisite(Api.FormatCreate(VisiteData(medecin.value, form, user.value)))
  {
    if medecin.None? then SubmitResult(ChooseDoctor, [])
    else if !TimesFilled(form) then SubmitResult(FillTimes, [])
    else if user.None? then SubmitResult(CreateFailed, [])
    else
      PickerTimeWellFormed(form.heureArrivee);
      PickerTimeWellFormed(form.heureDebutEntretien);
      PickerTimeWellFormed(form.heureDepart);
      var x := Api.CreateVisite(token, VisiteData(medecin.value, form, user.value), server);
      SubmitResult(if x.outcome.Success? then Saved else CreateFailed, x.sent)
  }

  const PickTimePrompt: string := "Sélectionner une heure"

  /** The label of a time button: the `HH:MM` of the stored time, or a prompt. */
  function TimeButtonLabel(value: string): (r: string)
    ensures value == "" ==> r == PickTimePrompt
    ensures value != "" ==> r == Prefix(value, 5) && r <= value
  {
    if value != "" then Prefix(value, 5) else PickTimePrompt
  }

  /** Once a time is picked its button shows `HH:MM`, which `validateTime` accepts. */
  lemma PickedLabelIsValid(c: Clock)
    requires ValidClock(c)
    ensures TimeButtonLabel(FormatTimeForAPI(c)) == Pad2(Show(c.hours)) + ":" + Pad2(Show(c.minutes))
    ensures ValidateTime(TimeButtonLabel(FormatTimeForAPI(c)))
  {
    FormatTimeForAPIRoundTrip(c);
  }
}

=== FILE: api.dfy ===
/** The service layer (`src/services/api.ts`): the wire format of a visit,
    the duration arithmetic of `createVisite`, the `rendez_vous` coercion of
    `updateVisite`, and the request/response decision of `fetchWithAuth` and
    the calls built on it. The network is a parameter: `server` stands for
    `fetch` followed by `response.json()`. */
module Api {
  import opened Wrappers
  import opened Text
  import opened Visits

  const BaseUrl: string := "https://s5-4242.nuage-peda.fr/gsbvttMobile/API"

  /*** Datetimes and durations ***/

  /** `formatDateTime`: the MySQL datetime of a visit date and a time of day. */
  function FormatDateTime(date: string, time: string): (r: string)
    ensures |r| == |date| + 1 + |time|
  {
    date + " " + time
  }

  /** For a space-free date, the first space of the datetime is the one
      `FormatDateTime` put there: splitting there gives the date and the time back. */
  lemma SplitDateTime(date: string, time: string)
    requires ' ' !in date
    ensures var r := FormatDateTime(date, time);
      && IndexOf(r, ' ') == Some(|date|)
      && r[..|date|] == date
      && r[|date| + 1..] == time
      && Split(r, ' ') == [date] + Split(time, ' ')
  {
    var r := FormatDateTime(date, time);
    assert r[..|date|] == date;
    assert r[|date|] == ' ';
    SplitAfterFirst(date, ' ', time);
  }

  /** `formatTimeValue`: a number of minutes as a MySQL time `HH:MM:00`. */
  function FormatTimeValue(minutes: nat): (r: string)
    ensures |r| >= 8
  {
    Pad2(Show(minutes / 60)) + ":" + Pad2(Show(minutes % 60)) + ":00"
  }

  /** The shape of a MySQL time: two digits, a colon, two digits, a colon, `00`. */
  predicate IsTimeText(s: string) {
    && |s| == 8
    && IsDigit(s[0]) && IsDigit(s[1]) && s[2] == ':'
    && IsDigit(s[3]) && IsDigit(s[4]) && s[5] == ':'
    && s[6] == '0' && s[7] == '0'
  }

  /** `createVisite` can read the time: `split(':')` gives at least two fields
      and the first two are digit strings, so neither `Number` is `NaN`. */
  predicate WellFormedTime(t: string) {
    var f := Split(t, ':');
    |f| >= 2 && IsDigits(f[0]) && IsDigits(f[1])
  }

  /** `const [h, m] = t.split(':').map(Number)`: only the first two fields count. */
  function ClockFields(t: string): (hm: (nat, nat))
    requires WellFormedTime(t)
  {
    var f := Split(t, ':');
    (ParseDigits(f[0]), ParseDigits(f[1]))
  }

  /** The hours are the number before the first colon and the minutes the
      number after it, up to the next colon if there is one. */
  lemma ClockFieldsAtFirstColon(t: string)
    requires WellFormedTime(t)
    ensures IndexOf(t, ':').Some?
    ensures var i := IndexOf(t, ':').value;
      && ClockFields(t).0 == ParseDigits(t[..i])
      && ClockFields(t).1 == ParseDigits(Split(t[i + 1..], ':')[0])
  {
    var i := IndexOf(t, ':').value;
    assert Split(t, ':') == [t[..i]] + Split(t[i + 1..], ':');
  }

  /** `h * 60 + m`: the minutes since midnight of a time. */
  function MinutesOf(t: string): (r: nat)
    requires WellFormedTime(t)
    ensures r >= 60 * ClockFields(t).0 && r >= ClockFields(t).1
    ensures ClockFields(t).1 < 60 ==> r < 60 * ClockFields(t).0 + 60
  {
    ClockFields(t).0 * 60 + ClockFields(t).1
  }

  /** `Math.max(0, x)`. */
  function Clamp(x: int): (r: nat)
    ensures r >= x
    ensures r == x || r == 0
  {
    if x > 0 then x else 0
  }

  /** Reading a formatted duration back the way `createVisite` reads a time
      gives the hours and the minutes of the duration, and so the duration. */
  lemma FormatTimeValueRoundTrip(minutes: nat)
    ensures WellFormedTime(FormatTimeValue(minutes))
    ensures ClockFields(FormatTimeValue(minutes)) == (minutes / 60, minutes % 60)
    ensures MinutesOf(FormatTimeValue(minutes)) == minutes
    ensures minutes % 60 < 60
  {
    var hh := Pad2(Show(minutes / 60));
    var mm := Pad2(Show(minutes % 60));
    ParsePad2Show(minutes / 60);
    ParsePad2Show(minutes % 60);
    DigitsHaveNoSeparator(hh);
    DigitsHaveNoSeparator(mm);
    assert FormatTimeValue(minutes) == hh + [':'] + mm + [':'] + "00";
    SplitFirstTwo(hh, ':', mm, "00");
  }

  /** Below 100 hours, a formatted duration is exactly `HH:MM:00`. */
  lemma FormatTimeValueShape(minutes: nat)
    requires minutes < 6000
    ensures IsTimeText(FormatTimeValue(minutes))
    ensures FormatTimeValue(minutes)[..2] == Pad2(Show(minutes / 60))
    ensures FormatTimeValue(minutes)[3..5] == Pad2(Show(minutes % 60))
  {
    Pad2ShowSmall(minutes / 60);
    Pad2ShowSmall(minutes % 60);
  }

  /** Zero minutes is `00:00:00`. */
  lemma FormatTimeValueZero()
    ensures FormatTimeValue(0) == "00:00:00"
  {
    Pad2ShowSmall(0);
  }

  /*** Creating a visit ***/

  /** `CreateVisiteData`: what the add-visit screen hands to `createVisite`. */
  datatype CreateVisiteData = CreateVisiteData(
    idVisiteur: int,
    idMedecin: int,
    dateVisite: string,
    heureArrivee: string,
    heureDebutEntretien: string,
    heureDepart: string,
    rendezVous: bool)

  /** The body `createVisite` posts (`formattedData`). */
  datatype CreatePayload = CreatePayload(
    idVisiteur: int,
    idMedecin: int,
    dateVisite: string,
    heureArrivee: string,
    heureDebutEntretien: string,
    heureDepart: string,
    tempsAttente: string,
    tempsVisite: string,
    rendezVous: int)

  predicate TimesWellFormed(d: CreateVisiteData) {
    WellFormedTime(d.heureArrivee) && WellFormedTime(d.heureDebutEntretien) && WellFormedTime(d.heureDepart)
  }

  /** Minutes between arrival and the start of the interview, never negative. */
  function WaitMinutes(d: CreateVisiteData): (r: nat)
    requires TimesWellFormed(d)
    ensures r == 0 <==> MinutesOf(d.heureDebutEntretien) <= MinutesOf(d.heureArrivee)
    ensures r > 0 ==> MinutesOf(d.heureArrivee) + r == MinutesOf(d.heureDebutEntretien)
  {
    Clamp(MinutesOf(d.heureDebutEntretien) - MinutesOf(d.heureArrivee))
  }

  /** Minutes between arrival and departure, never negative. */
  function VisitMinutes(d: CreateVisiteData): (r: nat)
    requires TimesWellFormed(d)
    ensures r == 0 <==> MinutesOf(d.heureDepart) <= MinutesOf(d.heureArrivee)
    ensures r > 0 ==> MinutesOf(d.heureArrivee) + r == MinutesOf(d.heureDepart)
  {
    Clamp(MinutesOf(d.heureDepart) - MinutesOf(d.heureArrivee))
  }

  /** The two durations as the clamped differences of the times read back. */
  lemma ClampedDurations(d: CreateVisiteData)
    requires TimesWellFormed(d)
    ensures WaitMinutes(d) == Clamp(MinutesOf(d.heureDebutEntretien) - MinutesOf(d.heureArrivee))
    ensures VisitMinutes(d) == Clamp(MinutesOf(d.heureDepart) - MinutesOf(d.heureArrivee))
  {
  }

  /** The payload of `createVisite`: the three times prefixed with the visit
      date, the two durations as MySQL times that read back as the clamped
      differences, and the appointment flag as 0/1. */
  function FormatCreate(d: CreateVisiteData): (p: CreatePayload)
    requires TimesWellFormed(d)
    ensures p.idVisiteur == d.idVisiteur && p.idMedecin == d.idMedecin
    ensures p.dateVisite == d.dateVisite
    ensures p.heureArrivee == FormatDateTime(d.dateVisite, d.heureArrivee)
    ensures p.heureDebutEntretien == FormatDateTime(d.dateVisite, d.heureDebutEntretien)
    ensures p.heureDepart == FormatDateTime(d.dateVisite, d.heureDepart)
    ensures WellFormedTime(p.tempsAttente) && WellFormedTime(p.tempsVisite)
    ensures MinutesOf(p.tempsAttente) == WaitMinutes(d)
    ensures MinutesOf(p.tempsVisite) == VisitMinutes(d)
    ensures MinutesOf(p.tempsAttente) >= MinutesOf(d.heureDebutEntretien) - MinutesOf(d.heureArrivee)
    ensures MinutesOf(p.tempsVisite) >= MinutesOf(d.heureDepart) - MinutesOf(d.heureArrivee)
    ensures p.rendezVous == 1 <==> d.rendezVous
    ensures p.rendezVous == 0 <==> !d.rendezVous
  {
    FormatTimeValueRoundTrip(WaitMinutes(d));
    FormatTimeValueRoundTrip(VisitMinutes(d));
    CreatePayload(
      d.idVisiteur,
      d.idMedecin,
      d.dateVisite,
      FormatDateTime(d.dateVisite, d.heureArrivee),
      FormatDateTime(d.dateVisite, d.heureDebutEntretien),
      FormatDateTime(d.dateVisite, d.heureDepart),
      FormatTimeValue(WaitMinutes(d)),
      FormatTimeValue(VisitMinutes(d)),
      if d.rendezVous then 1 else 0)
  }

  /** The wait never exceeds the visit exactly when the interview starts no
      later than the departure, or no later than the arrival (both clamp to 0);
      in particular whenever arrival <= start <= departure. */
  lemma WaitWithinVisit(d: CreateVisiteData)
    requires TimesWellFormed(d)
    ensures WaitMinutes(d) <= VisitMinutes(d) <==>
      (MinutesOf(d.heureDebutEntretien) <= MinutesOf(d.heureDepart)
       || MinutesOf(d.heureDebutEntretien) <= MinutesOf(d.heureArrivee))
  {
  }

  /** Equal arrival and interview-start times give a zero wait. */
  lemma SameStartNoWait(d: CreateVisiteData)
    requires TimesWellFormed(d)
    requires MinutesOf(d.heureDebutEntretien) == MinutesOf(d.heureArrivee)
    ensures FormatCreate(d).tempsAttente == "00:00:00"
  {
    FormatTimeValueZero();
  }

  /** A departure not after the arrival (malformed input) clamps the visit to zero. */
  lemma EarlyDepartureClamps(d: CreateVisiteData)
    requires TimesWellFormed(d)
    requires MinutesOf(d.heureDepart) <= MinutesOf(d.heureArrivee)
    ensures FormatCreate(d).tempsVisite == "00:00:00"
  {
    FormatTimeValueZero();
  }

  /** Only the first two colon-separated fields are read: seconds, or anything
      else after a second colon, do not change the time. */
  lemma SecondsIgnored(hours: string, minutes: string, rest: string)
    requires IsDigits(hours) && IsDigits(minutes)
    ensures WellFormedTime(hours + ":" + minutes)
    ensures WellFormedTime(hours + ":" + minutes + ":" + rest)
    ensures ClockFields(hours + ":" + minutes + ":" + rest) == ClockFields(hours + ":" + minutes)
  {
    DigitsHaveNoSeparator(hours);
    DigitsHaveNoSeparator(minutes);
    SplitTwo(hours, ':', minutes);
    SplitFirstTwo(hours, ':', minutes, rest);
  }

  /*** Updating a visit ***/

  /** The `rendez_vous` of `updateVisite`: a boolean becomes 1 or 0, anything else is sent as is. */
  function UpdateFlag(f: Flag): (r: Flag)
    ensures !r.B?
    ensures Truthy(r) == Truthy(f)
    ensures !f.B? ==> r == f
    ensures r.N? && f.B? ==> r.n == 0 || r.n == 1
  {
    match f
    case B(b) => N(if b then 1 else 0)
    case _ => f
  }

  /** `formattedData` of `updateVisite`: the record with only its flag coerced;
      the durations are not recomputed. */
  function FormatUpdate(v: Visite): (r: Visite)
    ensures r.(rendezVous := v.rendezVous) == v
    ensures Truthy(r.rendezVous) == Truthy(v.rendezVous)
    ensures !r.rendezVous.B?
    ensures v.rendezVous.B? ==> r.rendezVous == N(if v.rendezVous.b then 1 else 0)
  {
    v.(rendezVous := UpdateFlag(v.rendezVous))
  }

  /** Coercing twice is coercing once. */
  lemma FormatUpdateIdempotent(v: Visite)
    ensures FormatUpdate(FormatUpdate(v)) == FormatUpdate(v)
  {
  }

  /*** Requests ***/

  datatype Method = Get | Post | Put | Delete

  /** The JSON body of a request. */
  datatype Body =
    | NoBody
    | Credentials(email: string, password: string)
    | NewVisite(payload: CreatePayload)
    | ChangedVisite(visite: Visite)
    | VisiteId(idVisite: int)

  /** A request as handed to `fetch`: `authorization` is the `Authorization` header, if any. */
  datatype HttpRequest = HttpRequest(verb: Method, url: string, authorization: Option<string>, contentType: string, body: Body)

  /** `response.ok`, `data.message` and the parsed body `data`. */
  datatype HttpResponse<D> = HttpResponse(ok: bool, message: Option<string>, data: D)

  /** What a call did: the requests it sent, in order, and what it returned or threw. */
  datatype Exchange<D> = Exchange(sent: seq<HttpRequest>, outcome: Result<D, string>)

  /** `!token` is false: a stored, non-empty token. */
  predicate HasToken(token: Option<string>)
    ensures !HasToken(token) <==> token in {None, Some("")}
  {
    token.Some? && token.value != ""
  }

  /** `data.message || fallback`. */
  function MessageOr(message: Option<string>, fallback: string): (r: string)
    ensures r == fallback || message == Some(r)
    ensures r == fallback <== message.None? || message == Some("")
    ensures message.Some? && message.value != "" ==> r == message.value
    ensures fallback != "" ==> r != ""
  {
    if message.Some? && message.value != "" then message.value else fallback
  }

  const TokenMissing: string := "Token non trouvé"
  const ApiErrorFallback: string := "Erreur API"
  const LoginErrorFallback: string := "Erreur de connexion"

  /** `fetchWithAuth`: without a token it throws before any request; otherwise
      it sends one request to the endpoint with the bearer token, and returns
      the body of an ok response or throws the server's message, or
      `'Erreur API'` when there is none. */
  function FetchWithAuth<D>(token: Option<string>, endpoint: string, verb: Method, body: Body,
                            server: HttpRequest -> HttpResponse<D>): (x: Exchange<D>)
    ensures x.sent == [] <==> !HasToken(token)
    ensures !HasToken(token) ==> x.outcome == Failure(TokenMissing)
    ensures HasToken(token) ==> x.sent == [HttpRequest(verb, BaseUrl + endpoint, Some("Bearer " + token.value), "application/json", body)]
    ensures x.outcome.Success? <==> |x.sent| == 1 && server(x.sent[0]).ok
    ensures x.outcome.Success? ==> x.outcome.value == server(x.sent[0]).data
    ensures |x.sent| == 1 && !server(x.sent[0]).ok ==>
      x.outcome == Failure(MessageOr(server(x.sent[0]).message, ApiErrorFallback))
  {
    if !HasToken(token) then
      Exchange([], Failure(TokenMissing))
    else
      var request := HttpRequest(verb, BaseUrl + endpoint, Some("Bearer " + token.value), "application/json", body);
      var response := server(request);
      if response.ok then Exchange([request], Success(response.data))
      else Exchange([request], Failure(MessageOr(response.message, ApiErrorFallback)))
  }

  /** `login`: the one call without a token; a failure throws the server's
      message or `'Erreur de connexion'`. */
  function Login<D>(email: string, password: string, server: HttpRequest -> HttpResponse<D>): (x: Exchange<D>)
    ensures x.sent == [HttpRequest(Post, BaseUrl + "/ApiAuth.php", None, "application/json", Credentials(email, password))]
    ensures x.outcome.Success? <==> server(x.sent[0]).ok
    ensures x.outcome.Success? ==> x.outcome.value == server(x.sent[0]).data
    ensures !server(x.sent[0]).ok ==> x.outcome == Failure(MessageOr(server(x.sent[0]).message, LoginErrorFallback))
  {
    var request := HttpRequest(Post, BaseUrl + "/ApiAuth.php", None, "application/json", Credentials(email, password));
    var response := server(request);
    if response.ok then Exchange([request], Success(response.data))
    else Exchange([request], Failure(MessageOr(response.message, LoginErrorFallback)))
  }

  /** `fetchVisites`: GET the visit list. */
  function FetchVisites(token: Option<string>, server: HttpRequest -> HttpResponse<Reply>): (x: Exchange<Reply>)
    ensures HasToken(token) ==> |x.sent| == 1 && x.sent[0].verb == Get && x.sent[0].url == BaseUrl + "/ApiVisite.php" && x.sent[0].body == NoBody
    ensures !HasToken(token) ==> x == Exchange([], Failure(TokenMissing))
  {
    FetchWithAuth(token, "/ApiVisite.php", Get, NoBody, server)
  }

  /** `getVisite`: GET one visit, the id in the query string. */
  function GetVisite(token: Option<string>, id: int, server: HttpRequest -> HttpResponse<Reply>): (x: Exchange<Reply>)
    ensures HasToken(token) ==> |x.sent| == 1 && x.sent[0].verb == Get && x.sent[0].url == BaseUrl + "/ApiVisite.php?id=" + ShowInt(id)
    ensures !HasToken(token) ==> x == Exchange([], Failure(TokenMissing))
  {
    FetchWithAuth(token, "/ApiVisite.php?id=" + ShowInt(id), Get, NoBody, server)
  }

  /** Different visits are fetched from different addresses. */
  lemma GetVisiteUrlsDistinct(token: Option<string>, a: int, b: int, server: HttpRequest -> HttpResponse<Reply>)
    requires HasToken(token)
    ensures GetVisite(token, a, server).sent[0].url == GetVisite(token, b, server).sent[0].url <==> a == b
  {
    var prefix := BaseUrl + "/ApiVisite.php?id=";
    var ua := GetVisite(token, a, server).sent[0].url;
    var ub := GetVisite(token, b, server).sent[0].url;
    if ua == ub {
      assert ua[|prefix|..] == ShowInt(a);
      assert ub[|prefix|..] == ShowInt(b);
    }
    ShowIntInjective(a, b);
  }

  /** `createVisite`: POST the formatted payload. */
  function CreateVisite<D>(token: Option<string>, d: CreateVisiteData, server: HttpRequest -> HttpResponse<D>): (x: Exchange<D>)
    requires TimesWellFormed(d)
    ensures HasToken(token) ==> |x.sent| == 1 && x.sent[0].verb == Post && x.sent[0].url == BaseUrl + "/ApiVisite.php"
    ensures HasToken(token) ==> x.sent[0].body.NewVisite? && x.sent[0].body.payload == FormatCreate(d)
    ensures !HasToken(token) ==> x == Exchange([], Failure(TokenMissing))
    ensures x.outcome.Success? <==> HasToken(token) && server(x.sent[0]).ok
  {
    FetchWithAuth(token, "/ApiVisite.php", Post, NewVisite(FormatCreate(d)), server)
  }

  /** `updateVisite`: PUT the record with its flag coerced. */
  function UpdateVisite<D>(token: Option<string>, v: Visite, server: HttpRequest -> HttpResponse<D>): (x: Exchange<D>)
    ensures HasToken(token) ==> |x.sent| == 1 && x.sent[0].verb == Put && x.sent[0].url == BaseUrl + "/ApiVisite.php"
    ensures HasToken(token) ==> x.sent[0].body.ChangedVisite? && x.sent[0].body.visite == FormatUpdate(v)
    ensures !HasToken(token) ==> x == Exchange([], Failure(TokenMissing))
  {
    FetchWithAuth(token, "/ApiVisite.php", Put, ChangedVisite(FormatUpdate(v)), server)
  }

  /** `deleteVisite`: DELETE with the id in the body, not in the address. */
  function DeleteVisite<D>(token: Option<string>, id: int, server: HttpRequest -> HttpResponse<D>): (x: Exchange<D>)
    ensures HasToken(token) ==> |x.sent| == 1 && x.sent[0].verb == Delete
    ensures HasToken(token) ==> x.sent[0].url == BaseUrl + "/ApiVisite.php" && x.sent[0].body == VisiteId(id)
    ensures !HasToken(token) ==> x == Exchange([], Failure(TokenMissing))
  {
    FetchWithAuth(token, "/ApiVisite.php", Delete, VisiteId(id), server)
  }

  /** `deleteVisite` addresses the visit `getVisite` fetches: the same
      endpoint, with the id moved from the query string into the body; and
      different ids give different requests. */
  lemma DeleteTargetsFetchedVisite(token: Option<string>, a: int, b: int, server: HttpRequest -> HttpResponse<Reply>)
    requires HasToken(token)
    ensures var del := DeleteVisite(token, a, server).sent[0];
      GetVisite(token, a, server).sent[0].url == del.url + "?id=" + ShowInt(del.body.idVisite)
    ensures DeleteVisite(token, a, server).sent[0] == DeleteVisite(token, b, server).sent[0] <==> a == b
  {
  }

  /** A coordinate: its numeric value, which decides JavaScript truthiness, and
      its text `String(value)` as spliced into the query string. */
  datatype Coordinate = Coordinate(value: real, text: string)

  predicate Given(c: Option<Coordinate>) {
    c.Some? && c.value.value != 0.0
  }

  /** The query string of `fetchCabinets`: both coordinates, or nothing when
      either is missing or zero. */
  function CabinetQuery(latitude: Option<Coordinate>, longitude: Option<Coordinate>): (q: string)
    ensures q != "" <==> Given(latitude) && Given(longitude)
    ensures q != "" ==> q == "?latitude=" + latitude.value.text + "&longitude=" + longitude.value.text
  {
    if Given(latitude) && Given(longitude) then
      "?latitude=" + latitude.value.text + "&longitude=" + longitude.value.text
    else ""
  }

  /** Reading the query back: after the `?`, splitting at `&` gives the
      latitude field and then the longitude field, each its name, `=` and
      the coordinate's text. */
  lemma CabinetQueryReadBack(latitude: Option<Coordinate>, longitude: Option<Coordinate>)
    requires Given(latitude) && Given(longitude)
    requires '&' !in latitude.value.text && '&' !in longitude.value.text
    ensures var q := CabinetQuery(latitude, longitude);
      && |q| > 0 && q[0] == '?'
      && Split(q[1..], '&') == ["latitude=" + latitude.value.text, "longitude=" + longitude.value.text]
  {
    var lat := "latitude=" + latitude.value.text;
    var lon := "longitude=" + longitude.value.text;
    FieldNamesHaveNoAmpersand(latitude.value.text, longitude.value.text);
    QueryFields(lat, lon, CabinetQuery(latitude, longitude));
  }

  lemma FieldNamesHaveNoAmpersand(lt: string, ln: string)
    requires '&' !in lt && '&' !in ln
    ensures '&' !in "latitude=" + lt && '&' !in "longitude=" + ln
  {
    assert '&' !in "latitude=" && '&' !in "longitude=";
  }

  lemma QueryFields(lat: string, lon: string, q: string)
    requires '&' !in lat && '&' !in lon
    requires q == "?" + lat + "&" + lon
    ensures |q| > 0 && q[0] == '?' && Split(q[1..], '&') == [lat, lon]
  {
    assert q[1..] == lat + ['&'] + lon;
    SplitTwo(lat, '&', lon);
  }

  /** `fetchCabinets`: GET the cabinets, near the position when one is known. */
  function FetchCabinets<D>(token: Option<string>, latitude: Option<Coordinate>, longitude: Option<Coordinate>,
                            server: HttpRequest -> HttpResponse<D>): (x: Exchange<D>)
    ensures HasToken(token) ==> |x.sent| == 1 && x.sent[0].verb == Get
    ensures HasToken(token) ==> x.sent[0].url == BaseUrl + "/ApiCabinet.php" + CabinetQuery(latitude, longitude)
    ensures !HasToken(token) ==> x == Exchange([], Failure(TokenMissing))
  {
    FetchWithAuth(token, "/ApiCabinet.php" + CabinetQuery(latitude, longitude), Get, NoBody, server)
  }

  /** `fetchMedecins`: GET the doctors. */
  function FetchMedecins<D>(token: Option<string>, server: HttpRequest -> HttpResponse<D>): (x: Exchange<D>)
    ensures HasToken(token) ==> |x.sent| == 1 && x.sent[0].verb == Get && x.sent[0].url == BaseUrl + "/ApiMedecin.php"
    ensures !HasToken(token) ==> x == Exchange([], Failure(TokenMissing))
  {
    FetchWithAuth(token, "/ApiMedecin.php", Get, NoBody, server)
  }
}

=== FILE: roundtrips.dfy ===
/** Properties that span files: a time picked on the add-visit screen goes
    through `createVisite` into the backend's datetime, and the list, card and
    detail screens show it back as the same `HH:MM`; the appointment flag
    survives its 0/1 encoding; the durations are those of the picked times. */
module RoundTrips {
  import opened Wrappers
  import opened Text
  import opened Visits
  import Api
  import VisitDetail
  import VisitList
  import VisitCard
  import AddVisit

  /** The three `formatTime` functions agree on every non-empty text; they
      differ only in what they show for an empty one. */
  lemma FormatTimesAgree(s: string)
    ensures VisitCard.FormatTime(s) == VisitList.FormatTime(s)
    ensures s != "" ==> VisitDetail.FormatTime(Some(s)) == VisitList.FormatTime(s)
    ensures s == "" ==> VisitList.FormatTime(s) == "" && VisitDetail.FormatTime(Some(s)) == "-"
  {
  }

  /** A datetime built by `formatDateTime` from a space-free date and time is
      shown as the first five characters of the time, on every screen. */
  lemma DateTimeShownAsTime(date: string, time: string)
    requires ' ' !in date && ' ' !in time
    ensures VisitList.FormatTime(Api.FormatDateTime(date, time)) == Prefix(time, 5)
    ensures VisitCard.FormatTime(Api.FormatDateTime(date, time)) == Prefix(time, 5)
    ensures VisitDetail.FormatTime(Some(Api.FormatDateTime(date, time))) == Prefix(time, 5)
  {
    ClockTextAfterDate(date, time);
  }

  /** `2025-03-06 14:57:25` is shown as `14:57`. */
  lemma DateTimeExample()
    ensures VisitList.FormatTime("2025-03-06 14:57:25") == "14:57"
  {
    assert "2025-03-06 14:57:25" == Api.FormatDateTime("2025-03-06", "14:57:25");
    DateTimeShownAsTime("2025-03-06", "14:57:25");
  }

  /** A time picked for a visit is stored in the payload as
      `date HH:MM:00` and listed back as exactly the picked `HH:MM`. */
  lemma PickedTimeListedBack(date: string, c: AddVisit.Clock)
    requires ' ' !in date && AddVisit.ValidClock(c)
    ensures VisitList.FormatTime(Api.FormatDateTime(date, AddVisit.FormatTimeForAPI(c)))
      == Pad2(Show(c.hours)) + ":" + Pad2(Show(c.minutes))
  {
    var t := AddVisit.FormatTimeForAPI(c);
    AddVisit.FormatTimeForAPIRoundTrip(c);
    assert IsDigits(Pad2(Show(c.hours))) && IsDigits(Pad2(Show(c.minutes)));
    DigitsHaveNoSeparator(Pad2(Show(c.hours)));
    DigitsHaveNoSeparator(Pad2(Show(c.minutes)));
    assert ' ' !in t;
    DateTimeShownAsTime(date, t);
  }

  /** Wire flag and screen flag agree: the 0/1 `createVisite` sends is read
      back by the screens as the boolean the form held. */
  lemma RendezVousRoundTrip(d: Api.CreateVisiteData, v: Visite)
    requires Api.TimesWellFormed(d)
    ensures Truthy(N(Api.FormatCreate(d).rendezVous)) == d.rendezVous
    ensures VisitDetail.Normalize(v.(rendezVous := N(Api.FormatCreate(d).rendezVous))).rendezVous == B(d.rendezVous)
    ensures VisitList.IsRdv(N(Api.FormatCreate(d).rendezVous)) == d.rendezVous
  {
  }

  /** The record `updateVisite` sends, read back by the detail screen, is the
      record the screen had. */
  lemma UpdateThenNormalize(v: Visite)
    ensures VisitDetail.Normalize(Api.FormatUpdate(v)) == VisitDetail.Normalize(v)
  {
  }

  /** The durations of a visit entered with the picker are the clamped
      differences of the picked clock times, in minutes. */
  lemma PickedDurations(d: Api.CreateVisiteData, a: AddVisit.Clock, b: AddVisit.Clock, f: AddVisit.Clock)
    requires AddVisit.ValidClock(a) && AddVisit.ValidClock(b) && AddVisit.ValidClock(f)
    requires d.heureArrivee == AddVisit.FormatTimeForAPI(a)
    requires d.heureDebutEntretien == AddVisit.FormatTimeForAPI(b)
    requires d.heureDepart == AddVisit.FormatTimeForAPI(f)
    ensures Api.TimesWellFormed(d)
    ensures Api.WaitMinutes(d) == Api.Clamp((b.hours * 60 + b.minutes) - (a.hours * 60 + a.minutes))
    ensures Api.VisitMinutes(d) == Api.Clamp((f.hours * 60 + f.minutes) - (a.hours * 60 + a.minutes))
  {
    PickedMinutes(d.heureArrivee, a);
    PickedMinutes(d.heureDebutEntretien, b);
    PickedMinutes(d.heureDepart, f);
    Api.ClampedDurations(d);
  }

  /** A picked time reads back as its minutes since midnight. */
  lemma PickedMinutes(t: string, c: AddVisit.Clock)
    requires AddVisit.ValidClock(c) && t == AddVisit.FormatTimeForAPI(c)
    ensures Api.WellFormedTime(t) && Api.MinutesOf(t) == c.hours * 60 + c.minutes
  {
    AddVisit.FormatTimeForAPIRoundTrip(c);
  }

  /** The duration texts of the payload are shown back by the detail screen
      as the hours and minutes of the clamped differences. */
  lemma DurationsShownBack(d: Api.CreateVisiteData)
    requires Api.TimesWellFormed(d)
    requires Api.VisitMinutes(d) < 6000
    ensures VisitDetail.DurationText(Some(Api.FormatCreate(d).tempsVisite))
      == Pad2(Show(Api.VisitMinutes(d) / 60)) + ":" + Pad2(Show(Api.VisitMinutes(d) % 60))
  {
    var m := Api.VisitMinutes(d);
    Api.FormatTimeValueShape(m);
    Pad2ShowSmall(m / 60);
    Pad2ShowSmall(m % 60);
  }

  /** Under an hour, a duration is `00:` then its two minute digits then `:00`. */
  lemma FormatTimeValueUnderAnHour(m: nat)
    requires m < 60
    ensures Api.FormatTimeValue(m) == "00:" + [DigitChar(m / 10), DigitChar(m % 10)] + ":00"
  {
    Pad2ShowSmall(0);
    Pad2ShowSmall(m);
  }

  /** The detail screen after `getVisite`: without a token no request is sent
      and the screen shows the token error; an ok response holding a record
      shows it normalized; a failed response shows the server's message or
      `Erreur API`. */
  lemma DetailAfterGetVisite(prev: VisitDetail.DetailState, token: Option<string>, id: int,
                             server: Api.HttpRequest -> Api.HttpResponse<Reply>)
    ensures var x := Api.GetVisite(token, id, server);
      !Api.HasToken(token) ==>
        x.sent == [] && VisitDetail.Render(VisitDetail.LoadVisite(prev, x.outcome))
          == VisitDetail.ErrorView(VisitDetail.LoadFailedPrefix + Api.TokenMissing)
    ensures var x := Api.GetVisite(token, id, server);
      Api.HasToken(token) && server(x.sent[0]).ok && VisitDetail.PickRecord(server(x.sent[0]).data).Some? ==>
        VisitDetail.Render(VisitDetail.LoadVisite(prev, x.outcome))
          == VisitDetail.VisitView(VisitDetail.Normalize(VisitDetail.PickRecord(server(x.sent[0]).data).value))
    ensures var x := Api.GetVisite(token, id, server);
      Api.HasToken(token) && !server(x.sent[0]).ok ==>
        VisitDetail.Render(VisitDetail.LoadVisite(prev, x.outcome))
          == VisitDetail.ErrorView(VisitDetail.LoadFailedPrefix + Api.MessageOr(server(x.sent[0]).message, Api.ApiErrorFallback))
  {
    VisitDetail.LoadThenRender(prev, Api.GetVisite(token, id, server).outcome);
  }

  /** The list screen after `fetchVisites`: an ok array response becomes the
      list and any other ok response the empty list; no token or a failed
      response sets the error and keeps the list. */
  lemma ListAfterFetchVisites(prev: VisitList.ListState, token: Option<string>,
                              server: Api.HttpRequest -> Api.HttpResponse<Reply>)
    ensures var x := Api.FetchVisites(token, server);
      !Api.HasToken(token) ==>
        x.sent == [] && VisitList.LoadVisites(prev, x.outcome) == VisitList.ListState(prev.visits, Some(VisitList.LoadError), false, false)
    ensures var x := Api.FetchVisites(token, server);
      Api.HasToken(token) && !server(x.sent[0]).ok ==>
        VisitList.LoadVisites(prev, x.outcome) == VisitList.ListState(prev.visits, Some(VisitList.LoadError), false, false)
    ensures var x := Api.FetchVisites(token, server);
      Api.HasToken(token) && server(x.sent[0]).ok && server(x.sent[0]).data.Array? ==>
        VisitList.LoadVisites(prev, x.outcome) == VisitList.ListState(server(x.sent[0]).data.items, None, false, false)
    ensures var x := Api.FetchVisites(token, server);
      Api.HasToken(token) && server(x.sent[0]).ok && !server(x.sent[0]).data.Array? ==>
        VisitList.LoadVisites(prev, x.outcome) == VisitList.ListState([], None, false, false)
  {
  }

  /** The card, the list and the detail screen agree on whether a visit is by
      appointment, before and after the detail screen normalizes the flag. */
  lemma BadgesAgree(v: Visite)
    ensures VisitCard.BadgeLabel(v.rendezVous) == VisitList.BadgeLabel(v.rendezVous)
    ensures VisitDetail.BadgeLabel(v) == (if VisitList.BadgeLabel(v.rendezVous) == "RDV" then "Sur rendez-vous" else "Sans rendez-vous")
    ensures VisitDetail.BadgeLabel(VisitDetail.Normalize(v)) == VisitDetail.BadgeLabel(v)
    ensures VisitCard.BadgeLabel(VisitDetail.Normalize(v).rendezVous) == VisitCard.BadgeLabel(v.rendezVous)
  {
  }

  /** The card shows a duration sent by `createVisite` as its hours and minutes. */
  lemma DurationSuffixShowsDuration(minutes: nat)
    requires minutes < 6000
    ensures VisitCard.DurationSuffix(Some(Api.FormatTimeValue(minutes)))
      == " (" + Pad2(Show(minutes / 60)) + ":" + Pad2(Show(minutes % 60)) + ")"
  {
    var t := Api.FormatTimeValue(minutes);
    Api.FormatTimeValueShape(minutes);
    Pad2ShowSmall(minutes / 60);
    Pad2ShowSmall(minutes % 60);
    assert ' ' !in t;
    assert Prefix(t, 5) == t[..2] + ":" + t[3..5];
  }
}

=== FILE: scenario.dfy ===
/** The worked example of `createVisite`: a visit on 2025-03-06 from 14:00,
    interview at 14:15, departure at 14:45, by appointment. */
module Scenario {
  import opened Text
  import Api

  /** `14:00`, `14:15`, `14:45` on 2025-03-06 by appointment: the payload
      carries `2025-03-06 14:00`, a 15-minute wait, a 45-minute visit and 1. */
  lemma CreateScenario(d: Api.CreateVisiteData)
    requires d.dateVisite == "2025-03-06" && d.rendezVous
    requires d.heureArrivee == "14:00" && d.heureDebutEntretien == "14:15" && d.heureDepart == "14:45"
    ensures Api.TimesWellFormed(d)
    ensures Api.FormatCreate(d).heureArrivee == "2025-03-06 14:00"
    ensures Api.FormatCreate(d).tempsAttente == "00:15:00"
    ensures Api.FormatCreate(d).tempsVisite == "00:45:00"
    ensures Api.FormatCreate(d).rendezVous == 1
  {
    ScenarioDurations(d);
    FifteenMinutes();
    FortyFiveMinutes();
    ArrivalText();
  }

  /** The scenario's wait is 15 minutes and its visit 45. */
  lemma ScenarioDurations(d: Api.CreateVisiteData)
    requires d.heureArrivee == "14:00" && d.heureDebutEntretien == "14:15" && d.heureDepart == "14:45"
    ensures Api.TimesWellFormed(d)
    ensures Api.WaitMinutes(d) == 15 && Api.VisitMinutes(d) == 45
  {
    At1400(d.heureArrivee);
    At1415(d.heureDebutEntretien);
    At1445(d.heureDepart);
  }

  lemma At1400(t: string)
    requires t == "14:00"
    ensures Api.WellFormedTime(t) && Api.MinutesOf(t) == 840
  {
    assert t == "14" + ":" + "00";
    TimeOfTwoFields("14", "00");
  }

  lemma At1415(t: string)
    requires t == "14:15"
    ensures Api.WellFormedTime(t) && Api.MinutesOf(t) == 855
  {
    assert t == "14" + ":" + "15";
    TimeOfTwoFields("14", "15");
  }

  lemma At1445(t: string)
    requires t == "14:45"
    ensures Api.WellFormedTime(t) && Api.MinutesOf(t) == 885
  {
    assert t == "14" + ":" + "45";
    TimeOfTwoFields("14", "45");
  }

  lemma ArrivalText()
    ensures Api.FormatDateTime("2025-03-06", "14:00") == "2025-03-06 14:00"
  {
  }

  lemma FifteenMinutes()
    ensures Api.FormatTimeValue(15) == "00:15:00"
  {
    Pad2ShowSmall(0);
    Pad2ShowSmall(15);
  }

  lemma FortyFiveMinutes()
    ensures Api.FormatTimeValue(45) == "00:45:00"
  {
    Pad2ShowSmall(0);
    Pad2ShowSmall(45);
  }

  /** `HH:MM` with two-digit fields reads as hours and minutes. */
  lemma TimeOfTwoFields(hh: string, mm: string)
    requires |hh| == 2 && |mm| == 2 && IsDigits(hh) && IsDigits(mm)
    ensures Api.WellFormedTime(hh + ":" + mm)
    ensures Api.MinutesOf(hh + ":" + mm) == 60 * (10 * DigitValue(hh[0]) + DigitValue(hh[1])) + 10 * DigitValue(mm[0]) + DigitValue(mm[1])
  {
    DigitsHaveNoSeparator(hh);
    DigitsHaveNoSeparator(mm);
    SplitTwo(hh, ':', mm);
    ParseTwoDigits(hh);
    ParseTwoDigits(mm);
  }
}

=== FILE: text.dfy ===
/** The JavaScript string operations the client relies on, over `seq<char>`:
    `substring(0, n)`, `indexOf`, `split`, `String(n)` for integers,
    `Number(s)` for digit strings and `padStart(2, '0')`. */
module Text {
  import opened Wrappers

  /** `s.substring(0, n)`: the first `n` characters, or all of `s` when it is shorter. */
  function Prefix(s: string, n: nat): (r: string)
    ensures |r| == if |s| < n then |s| else n
    ensures r <= s
  {
    if |s| <= n then s else s[..n]
  }

  /** `s.indexOf(c)`: the position of the first `c`, or `None` for -1. */
  function IndexOf(s: string, c: char): (r: Option<nat>)
    ensures r.None? <==> c !in s
    ensures r.Some? ==> r.value < |s| && s[r.value] == c && c !in s[..r.value]
  {
    if |s| == 0 then None
    else if s[0] == c then Some(0)
    else
      match IndexOf(s[1..], c)
      case None => None
      case Some(i) =>
        assert s[..i + 1] == [s[0]] + s[1..][..i];
        Some(i + 1)
  }

  /** `s.split(sep)` with a one-character separator: the maximal separator-free
      fields, in order; a string without the separator is a single field. */
  function Split(s: string, sep: char): (r: seq<string>)
    ensures |r| >= 1
    ensures forall k :: 0 <= k < |r| ==> sep !in r[k]
    ensures sep !in s ==> r == [s]
    ensures sep in s ==> |r| >= 2
    decreases |s|
  {
    match IndexOf(s, sep)
    case None => [s]
    case Some(i) => [s[..i]] + Split(s[i + 1..], sep)
  }

  /** `parts.join(sep)`: the inverse of `Split`. */
  function Join(parts: seq<string>, sep: char): string
    requires |parts| >= 1
  {
    if |parts| == 1 then parts[0] else parts[0] + [sep] + Join(parts[1..], sep)
  }

  /** Splitting loses nothing: joining the fields with the separator gives the string back. */
  lemma {:induction false} JoinSplit(s: string, sep: char)
    ensures Join(Split(s, sep), sep) == s
    decreases |s|
  {
    match IndexOf(s, sep)
    case None =>
    case Some(i) =>
      JoinSplit(s[i + 1..], sep);
      assert s == s[..i] + [sep] + s[i + 1..];
  }

  /** The first field is everything before the first separator, and the rest
      of the fields are the fields of what follows it. */
  lemma SplitAfterFirst(x: string, sep: char, y: string)
    requires sep !in x
    ensures Split(x + [sep] + y, sep) == [x] + Split(y, sep)
  {
    var s := x + [sep] + y;
    var i := IndexOf(s, sep);
    assert s[|x|] == sep;
    assert s[..|x|] == x;
    assert i.value == |x|;
    assert s[|x| + 1..] == y;
  }

  /** Two separator-free fields joined by the separator split back into those two fields. */
  lemma SplitTwo(a: string, sep: char, b: string)
    requires sep !in a && sep !in b
    ensures Split(a + [sep] + b, sep) == [a, b]
  {
    SplitAfterFirst(a, sep, b);
  }

  /** The first two fields of `a + sep + b + sep + rest` are `a` and `b`, whatever `rest` is. */
  lemma SplitFirstTwo(a: string, sep: char, b: string, rest: string)
    requires sep !in a && sep !in b
    ensures var f := Split(a + [sep] + b + [sep] + rest, sep); |f| >= 3 && f[0] == a && f[1] == b
  {
    assert a + [sep] + b + [sep] + rest == a + [sep] + (b + [sep] + rest);
    SplitAfterFirst(a, sep, b + [sep] + rest);
    SplitAfterFirst(b, sep, rest);
  }

  predicate IsDigit(c: char) {
    '0' <= c <= '9'
  }

  predicate IsDigits(s: string) {
    forall k :: 0 <= k < |s| ==> IsDigit(s[k])
  }

  /** A digit string holds neither a separator like `:` nor a space. */
  lemma DigitsHaveNoSeparator(s: string)
    requires IsDigits(s)
    ensures ':' !in s && ' ' !in s
  {
    forall k | 0 <= k < |s|
      ensures s[k] != ':' && s[k] != ' '
    {
      assert IsDigit(s[k]);
    }
  }

  /** The character of a decimal digit. */
  function DigitChar(d: nat): (c: char)
    requires d < 10
    ensures IsDigit(c)
  {
    (48 + d) as char
  }

  /** The value of a digit character. */
  function DigitValue(c: char): (d: nat)
    requires IsDigit(c)
    ensures d < 10
  {
    c as int - 48
  }

  /** A digit's character reads back as the digit. */
  lemma DigitCharRoundTrip(d: nat)
    requires d < 10
    ensures DigitValue(DigitChar(d)) == d
  {
  }

  /** A digit character is the character of its own value. */
  lemma DigitValueRoundTrip(c: char)
    requires IsDigit(c)
    ensures DigitChar(DigitValue(c)) == c
  {
  }

  /** `String(n)` for a non-negative integer: its decimal digits, without leading zeros. */
  function Show(n: nat): (r: string)
    ensures |r| >= 1 && IsDigits(r)
    ensures n < 10 <==> |r| == 1
    ensures n >= 10 ==> r[0] != '0'
  {
    if n < 10 then [DigitChar(n)] else Show(n / 10) + [DigitChar(n % 10)]
  }

  /** `Number(s)` for a string of decimal digits; as in JavaScript, the empty string is 0. */
  function ParseDigits(s: string): (r: nat)
    requires IsDigits(s)
    ensures |s| == 0 ==> r == 0
  {
    if |s| == 0 then 0
    else
      10 * ParseDigits(s[..|s| - 1]) + DigitValue(s[|s| - 1])
  }

  /** Reading back the decimal text of a number gives the number. */
  lemma {:induction false} ParseShow(n: nat)
    ensures ParseDigits(Show(n)) == n
  {
    var s := Show(n);
    if n < 10 {
      DigitCharRoundTrip(n);
    } else {
      ParseShow(n / 10);
      assert s[..|s| - 1] == Show(n / 10);
      DigitCharRoundTrip(n % 10);
    }
  }

  /** A leading zero does not change the value of a digit string. */
  lemma {:induction false} ParseLeadingZero(s: string)
    requires IsDigits(s)
    ensures IsDigits("0" + s) && ParseDigits("0" + s) == ParseDigits(s)
    decreases |s|
  {
    var t := "0" + s;
    if |s| > 0 {
      assert t[..|t| - 1] == "0" + s[..|s| - 1];
      ParseLeadingZero(s[..|s| - 1]);
    }
  }

  /** `s.padStart(2, '0')`: zeros on the left up to two characters. */
  function Pad2(s: string): (r: string)
    ensures |r| == if |s| < 2 then 2 else |s|
    ensures IsDigits(s) ==> IsDigits(r)
  {
    if |s| == 0 then "00" else if |s| == 1 then "0" + s else s
  }

  /** Padding a digit string leaves its value unchanged. */
  lemma ParsePad2(s: string)
    requires IsDigits(s)
    ensures ParseDigits(Pad2(s)) == ParseDigits(s)
  {
    if |s| == 0 {
      assert Pad2(s) == "0" + "0";
      ParseLeadingZero("0");
    } else if |s| == 1 {
      ParseLeadingZero(s);
    }
  }

  /** `String(n).padStart(2, '0')` for a number below 100: exactly two digits,
      the tens then the units. */
  lemma Pad2ShowSmall(n: nat)
    requires n < 100
    ensures Pad2(Show(n)) == [DigitChar(n / 10), DigitChar(n % 10)]
  {
  }

  /** Below 100, and only there, the padded text has exactly two characters. */
  lemma TwoDigitsBelowHundred(n: nat)
    ensures n < 100 <==> |Pad2(Show(n))| == 2
  {
    if n < 100 {
      Pad2ShowSmall(n);
    } else {
      assert |Show(n / 10)| >= 2;
    }
  }

  /** The value of a two-digit string: tens, then units. */
  lemma ParseTwoDigits(d: string)
    requires |d| == 2 && IsDigits(d)
    ensures ParseDigits(d) == 10 * DigitValue(d[0]) + DigitValue(d[1])
  {
    assert d[..1][..0] == [];
    assert ParseDigits(d[..1]) == DigitValue(d[0]);
  }

  /** A two-digit string is the padded decimal text of its own value. */
  lemma Pad2ShowParse(d: string)
    requires |d| == 2 && IsDigits(d)
    ensures ParseDigits(d) < 100 && Pad2(Show(ParseDigits(d))) == d
  {
    ParseTwoDigits(d);
    var t, u := DigitValue(d[0]), DigitValue(d[1]);
    var n := ParseDigits(d);
    TensAndUnits(t, u);
    Pad2ShowSmall(n);
    assert DigitChar(t) == d[0] && DigitChar(u) == d[1];
    assert d == [d[0], d[1]];
  }

  /** `10 * t + u` has tens `t` and units `u`. */
  lemma TensAndUnits(t: nat, u: nat)
    requires t < 10 && u < 10
    ensures 10 * t + u < 100 && (10 * t + u) / 10 == t && (10 * t + u) % 10 == u
  {
  }

  /** Padded decimal text read back gives the number. */
  lemma ParsePad2Show(n: nat)
    ensures IsDigits(Pad2(Show(n))) && ParseDigits(Pad2(Show(n))) == n
  {
    ParsePad2(Show(n));
    ParseShow(n);
  }

  /** `String(i)` for any integer: a minus sign before the digits of a negative number. */
  function ShowInt(i: int): (r: string)
    ensures |r| >= 1
    ensures i >= 0 <==> IsDigit(r[0])
  {
    if i < 0 then "-" + Show(-i) else Show(i)
  }

  /** Different integers have different decimal texts. */
  lemma ShowIntInjective(a: int, b: int)
    ensures ShowInt(a) == ShowInt(b) <==> a == b
  {
    if ShowInt(a) == ShowInt(b) {
      if a >= 0 && b >= 0 {
        ShowInjective(a, b);
      } else if a < 0 && b < 0 {
        assert ShowInt(a)[1..] == Show(-a);
        assert ShowInt(b)[1..] == Show(-b);
        ShowInjective(-a, -b);
      }
    }
  }

  /** Different natural numbers have different decimal texts. */
  lemma ShowInjective(m: nat, n: nat)
    requires Show(m) == Show(n)
    ensures m == n
  {
    ParseShow(m);
    ParseShow(n);
  }
}

=== FILE: visit_card.dfy ===
/** The visit card (`src/components/visits/VisitCard.tsx`): its time text,
    appointment badge and optional duration suffix. */
module VisitCard {
  import opened Wrappers
  import opened Text
  import opened Visits

  /** `formatTime`: the `HH:MM` of a value, `''` for an empty one. */
  function FormatTime(timeString: string): (r: string)
    ensures timeString == "" ==> r == ""
    ensures timeString != "" ==> r == ClockText(timeString)
    ensures |r| <= 5
  {
    if timeString != "" && ' ' in timeString then Prefix(Split(timeString, ' ')[1], 5)
    else if timeString != "" then Prefix(timeString, 5)
    else ""
  }

  function BadgeLabel(f: Flag): (r: string)
    ensures Truthy(f) <==> r == "RDV"
    ensures !Truthy(f) <==> r == "Sans RDV"
  {
    if Truthy(f) then "RDV" else "Sans RDV"
  }

  /** `temps_visite && ` (${formatTime(temps_visite)})``: nothing when the
      duration is missing or empty, otherwise its `HH:MM` in parentheses. */
  function DurationSuffix(tempsVisite: Option<string>): (r: string)
    ensures tempsVisite.None? || tempsVisite == Some("") ==> r == ""
    ensures tempsVisite.Some? && tempsVisite.value != "" ==>
      r == " (" + FormatTime(tempsVisite.value) + ")"
  {
    match tempsVisite
    case None => ""
    case Some(t) => if t == "" then "" else " (" + FormatTime(t) + ")"
  }

  /** A 45-minute visit is shown as ` (00:45)`. */
  lemma DurationSuffixExample()
    ensures DurationSuffix(Some("00:45:00")) == " (00:45)"
  {
    assert ' ' !in "00:45:00";
    assert Prefix("00:45:00", 5) == "00:45";
  }
}

=== FILE: visit_detail.dfy ===
/** The visit detail screen (`src/screens/visits/VisitDetailScreen.tsx`):
    reducing the response of `getVisite` to one record with a strict boolean
    flag, the state after `loadVisite`, what the screen then shows, and the
    time and duration texts. */
module VisitDetail {
  import opened Wrappers
  import opened Text
  import opened Visits

  const NoDataMessage: string := "Aucune donnée reçue"
  const LoadFailedPrefix: string := "Impossible de charger la visite: "
  const GenericError: string := "Erreur de chargement"
  const NoTime: string := "-"

  /** The screen's state (`visite`, `error`, `loading`). */
  datatype DetailState = DetailState(visite: Option<Visite>, error: Option<string>, loading: bool)

  /** `Array.isArray(response) ? response[0] : response`, kept only when truthy:
      an array gives its first element, an object itself. */
  function PickRecord(reply: Reply): (r: Option<Visite>)
    ensures reply.Object? ==> r == Some(reply.visite)
    ensures reply.Array? ==> (r.Some? <==> |reply.items| > 0)
    ensures reply.Array? && r.Some? ==> r.value == reply.items[0]
    ensures reply.Nothing? ==> r.None?
  {
    match reply
    case Object(v) => Some(v)
    case Array(items) => if |items| > 0 then Some(items[0]) else None
    case Nothing => None
  }

  /** `{...data, rendez_vous: Boolean(data.rendez_vous)}`: the flag becomes a
      strict boolean with the same truth value, and nothing else changes. */
  function Normalize(v: Visite): (r: Visite)
    ensures r.rendezVous.B?
    ensures r.rendezVous.b == Truthy(v.rendezVous)
    ensures r.(rendezVous := v.rendezVous) == v
  {
    v.(rendezVous := B(Truthy(v.rendezVous)))
  }

  /** `1`, `0`, `true`, `false` and a missing flag become `true`, `false`, `true`,
      `false`, `false`; any other number is `true` exactly when it is not zero. */
  lemma NormalizeFlagTable(v: Visite, n: int)
    ensures Normalize(v.(rendezVous := N(1))).rendezVous == B(true)
    ensures Normalize(v.(rendezVous := N(0))).rendezVous == B(false)
    ensures Normalize(v.(rendezVous := B(true))).rendezVous == B(true)
    ensures Normalize(v.(rendezVous := B(false))).rendezVous == B(false)
    ensures Normalize(v.(rendezVous := Absent)).rendezVous == B(false)
    ensures Normalize(v.(rendezVous := N(n))).rendezVous == B(n != 0)
  {
  }

  /** Normalizing a normalized record changes nothing. */
  lemma NormalizeIdempotent(v: Visite)
    ensures Normalize(Normalize(v)) == Normalize(v)
  {
  }

  /** The state after `loadVisite`, from the state before it and what
      `getVisite` returned or threw. A failure keeps the previous visit. */
  function LoadVisite(prev: DetailState, outcome: Result<Reply, string>): (s: DetailState)
    ensures !s.loading
    ensures outcome.Failure? ==> s.error == Some(LoadFailedPrefix + outcome.error) && s.visite == prev.visite
    ensures outcome.Success? && PickRecord(outcome.value).Some? ==>
      s.error.None? && s.visite == Some(Normalize(PickRecord(outcome.value).value))
    ensures outcome.Success? && PickRecord(outcome.value).None? ==>
      s.error == Some(NoDataMessage) && s.visite == prev.visite
  {
    match outcome
    case Failure(e) => DetailState(prev.visite, Some(LoadFailedPrefix + e), false)
    case Success(reply) =>
      match PickRecord(reply)
      case Some(data) => DetailState(Some(Normalize(data)), None, false)
      case None => DetailState(prev.visite, Some(NoDataMessage), false)
  }

  /** What the screen renders. */
  datatype View = Spinner | ErrorView(message: string) | VisitView(visite: Visite)

  /** The spinner while loading; the error (or a generic one) when there is an
      error or no visit; otherwise the visit. */
  function Render(s: DetailState): (v: View)
    ensures v.Spinner? <==> s.loading
    ensures v.VisitView? ==> s.visite == Some(v.visite)
    ensures v.ErrorView? ==> v.message != ""
    ensures !s.loading && s.error.Some? && s.error.value != "" ==> v == ErrorView(s.error.value)
    ensures !s.loading && (s.error.None? || s.error == Some("")) && s.visite.Some? ==> v == VisitView(s.visite.value)
    ensures !s.loading && (s.error.None? || s.error == Some("")) && s.visite.None? ==> v == ErrorView(GenericError)
  {
    if s.loading then Spinner
    else if (s.error.Some? && s.error.value != "") || s.visite.None? then
      ErrorView(if s.error.Some? && s.error.value != "" then s.error.value else GenericError)
    else VisitView(s.visite.value)
  }

  /** After a load the screen shows the normalized record when the response
      held one, and otherwise an error, whatever it showed before. */
  lemma LoadThenRender(prev: DetailState, outcome: Result<Reply, string>)
    ensures outcome.Success? && PickRecord(outcome.value).Some? ==>
      Render(LoadVisite(prev, outcome)) == VisitView(Normalize(PickRecord(outcome.value).value))
    ensures outcome.Success? && PickRecord(outcome.value).None? ==>
      Render(LoadVisite(prev, outcome)) == ErrorView(NoDataMessage)
    ensures outcome.Failure? ==>
      Render(LoadVisite(prev, outcome)) == ErrorView(LoadFailedPrefix + outcome.error)
  {
  }

  /** A server answering `[v, ...]` and one answering `v` lead to the same screen state. */
  lemma ArrayOrObjectAgree(prev: DetailState, v: Visite, rest: seq<Visite>)
    ensures LoadVisite(prev, Success(Array([v] + rest))) == LoadVisite(prev, Success(Object(v)))
  {
  }

  /** `formatTime`: `'-'` for a missing or empty value, otherwise the `HH:MM` of it. */
  function FormatTime(datetime: Option<string>): (r: string)
    ensures datetime.None? || datetime == Some("") ==> r == NoTime
    ensures datetime.Some? && datetime.value != "" ==> r == ClockText(datetime.value)
    ensures |r| <= 5
  {
    match datetime
    case None => NoTime
    case Some(s) => if s == "" then NoTime else ClockText(s)
  }

  /** `value?.substring(0, 5) || '-'`: the first five characters of a duration,
      or `'-'` when it is missing or empty. */
  function DurationText(duration: Option<string>): (r: string)
    ensures |r| <= 5 && r != ""
    ensures duration.None? || duration == Some("") ==> r == NoTime
    ensures duration.Some? && duration.value != "" ==> r == Prefix(duration.value, 5) && r <= duration.value
  {
    match duration
    case None => NoTime
    case Some(s) => if Prefix(s, 5) == "" then NoTime else Prefix(s, 5)
  }

  /** The appointment badge of a normalized visit. */
  function BadgeLabel(v: Visite): (r: string)
    ensures Truthy(v.rendezVous) <==> r == "Sur rendez-vous"
    ensures !Truthy(v.rendezVous) <==> r == "Sans rendez-vous"
  {
    if Truthy(v.rendezVous) then "Sur rendez-vous" else "Sans rendez-vous"
  }
}

=== FILE: visit_list.dfy ===
/** The visit list screen (`src/screens/visits/VisitListScreen.tsx`): the
    guard on the response of `fetchVisites`, the appointment badge, the time
    text and the list keys. */
module VisitList {
  import opened Wrappers
  import opened Text
  import opened Visits

  const LoadError: string := "Erreur lors du chargement des visites"

  /** The screen's state (`visits`, `error`, `loading`, `refreshing`). */
  datatype ListState = ListState(visits: seq<Visite>, error: Option<string>, loading: bool, refreshing: bool)

  /** The state after `loadVisites`: an array response is the new list, any
      other response the empty list; a failure sets the error and keeps the list. */
  function LoadVisites(prev: ListState, outcome: Result<Reply, string>): (s: ListState)
    ensures !s.loading && !s.refreshing
    ensures s.error.None? <==> outcome.Success?
    ensures outcome.Failure? ==> s.error == Some(LoadError) && s.visits == prev.visits
    ensures outcome.Success? && outcome.value.Array? ==> s.visits == outcome.value.items
    ensures outcome.Success? && !outcome.value.Array? ==> s.visits == []
  {
    match outcome
    case Failure(_) => ListState(prev.visits, Some(LoadError), false, false)
    case Success(data) =>
      ListState(if data.Array? then data.items else [], None, false, false)
  }

  /** `formatTime`: `''` for an empty value, otherwise the `HH:MM` of it. */
  function FormatTime(timeString: string): (r: string)
    ensures timeString == "" ==> r == ""
    ensures timeString != "" ==> r == ClockText(timeString)
    ensures |r| <= 5
  {
    if timeString == "" then "" else ClockText(timeString)
  }

  /** `isRdv`: a boolean as is, anything else through `Boolean(...)`. */
  function IsRdv(f: Flag): (r: bool)
    ensures f.B? ==> r == f.b
    ensures f.N? ==> (r <==> f.n != 0)
    ensures f.Absent? ==> !r
  {
    match f
    case B(b) => b
    case _ => Truthy(f)
  }

  /** The `typeof` test is redundant: `isRdv` is `Boolean(rendez_vous)`, the
      value the detail screen normalizes the flag to. */
  lemma IsRdvIsTruthiness(f: Flag)
    ensures IsRdv(f) == Truthy(f)
  {
  }

  function BadgeLabel(f: Flag): (r: string)
    ensures IsRdv(f) <==> r == "RDV"
    ensures !IsRdv(f) <==> r == "Sans RDV"
  {
    if IsRdv(f) then "RDV" else "Sans RDV"
  }

  /** `keyExtractor`: `visit-` followed by the id. */
  function KeyOf(v: Visite): (k: string)
    ensures |k| > 6 && k[..6] == "visit-"
  {
    "visit-" + ShowInt(v.idVisite)
  }

  /** Two visits get the same key exactly when they have the same id. */
  lemma KeysDistinct(a: Visite, b: Visite)
    ensures KeyOf(a) == KeyOf(b) <==> a.idVisite == b.idVisite
  {
    if KeyOf(a) == KeyOf(b) {
      assert KeyOf(a)[6..] == ShowInt(a.idVisite);
      assert KeyOf(b)[6..] == ShowInt(b.idVisite);
    }
    ShowIntInjective(a.idVisite, b.idVisite);
  }

  /** A list whose ids are pairwise distinct has pairwise distinct keys. */
  lemma {:induction false} ListKeysDistinct(visits: seq<Visite>)
    requires forall i, j :: 0 <= i < j < |visits| ==> visits[i].idVisite != visits[j].idVisite
    ensures forall i, j :: 0 <= i < j < |visits| ==> KeyOf(visits[i]) != KeyOf(visits[j])
  {
    forall i, j | 0 <= i < j < |visits|
      ensures KeyOf(visits[i]) != KeyOf(visits[j])
    {
      KeysDistinct(visits[i], visits[j]);
    }
  }
}

=== FILE: visits.dfy ===
/** The visit record as the backend sends it, shared by the service layer and
    the screens, and the time-of-day extraction the three screens share. */
module Visits {
  import opened Wrappers
  import opened Text

  /** `rendez_vous` on the wire: a JSON boolean, a JSON number, or missing. */
  datatype Flag = B(b: bool) | N(n: int) | Absent

  /** JavaScript truthiness, `Boolean(rendez_vous)`. */
  predicate Truthy(f: Flag)
    ensures !Truthy(f) <==> f in {B(false), N(0), Absent}
  {
    match f
    case B(b) => b
    case N(n) => n != 0
    case Absent => false
  }

  /** A visit (`VisiteDetails` in the service layer and the detail screen,
      `VisitItem` in the list screen). */
  datatype Visite = Visite(
    idVisite: int,
    dateVisite: string,
    heureArrivee: string,
    heureDebutEntretien: string,
    heureDepart: string,
    rendezVous: Flag,
    idMedecin: int,
    idVisiteur: int,
    nomMedecin: Option<string>,
    prenomMedecin: Option<string>,
    tempsAttente: Option<string>,
    tempsVisite: Option<string>)

  /** The parsed JSON body of a visit response, reduced to the shapes the
      screens tell apart: one object, an array, or nothing (`null`). */
  datatype Reply = Object(visite: Visite) | Array(items: seq<Visite>) | Nothing

  /** The `HH:MM` the screens show for a stored time: when the text has a space
      (a `YYYY-MM-DD HH:MM:SS` datetime), the first five characters of the
      field after the first space (`split(' ')[1]`); otherwise the first five
      characters of the text itself. */
  function ClockText(s: string): (r: string)
    ensures |r| <= 5 && ' ' !in r
    ensures ' ' !in s ==> r == Prefix(s, 5)
    ensures s != "" ==> r != "" || ' ' in s
  {
    if ' ' in s then Prefix(Split(s, ' ')[1], 5) else Prefix(s, 5)
  }

  /** For `date + " " + rest` with a space-free date, the shown time is the
      first five characters of the first space-free field of `rest`. */
  lemma ClockTextAfterDate(date: string, rest: string)
    requires ' ' !in date
    ensures ClockText(date + " " + rest) == Prefix(Split(rest, ' ')[0], 5)
  {
    SplitAfterFirst(date, ' ', rest);
    assert (date + " " + rest)[|date|] == ' ';
  }
}

=== FILE: wrappers.dfy ===
/** Option and Result, the two failure-carrying shapes the model uses for
    JavaScript's `null`/`undefined` and for a thrown `Error`. */
module Wrappers {

  /** A value that may be missing (`null` or `undefined` in the source). */
  datatype Option<+T> = None | Some(value: T)

  /** The outcome of an operation that may throw: a value, or the message of the `Error`. */
  datatype Result<+R, +E> = Success(value: R) | Failure(error: E)
}
